=== FILE: README.md ===
# Node onboarding and liveness model

This project models the decision logic of the node-onboarding script
`windows_linux/app.py`. The script runs inside a container that joins a compute
cluster, in this order:

1. It reads the device id and API token from the command line.
2. It asks the API which cluster the machine is eligible for.
3. It fetches a NetBird setup key and brings the NetBird tunnel up.
4. It reads its overlay address from `netbird status`.
5. It registers the tunnel as a peer and registers the machine.
6. It opens a watch websocket. A heartbeat thread sends `"10s"` every ten seconds and
   stops the container when the server has been silent for more than 30 seconds.

On SIGTERM/SIGINT, and on that liveness timeout, the script deletes the peer
registration before it exits.

The model is functional throughout. HTTP replies, command results and clock readings
are input values. The process's observable behaviour is a trace of `Effect`s: requests
sent, commands run, frames sent. Modules:

- `Wrappers`: `Option` and `Result`.
- `PyJson`: decoded JSON values with Python truthiness, `dict.get` and `[0]`, including
  the exceptions they raise on the wrong kind of value.
- `Numeric`: `extract_numeric`. This is the `[\d.]+` search plus `float()`, on exact
  decimals, with its partner `Digits`, the rendering of numbers as text.
- `DecimalValue`: the number a decimal stands for (`Value`), which is what the machine
  payload carries.
- `StatusParse`: the `NetBird IP: (\d+\.\d+\.\d+\.\d+)` search of `install_netbird`. It
  comes with an independent description of a status line (`IpLineAt`) and with rendering.
- `Node`: the globals (`Session`), the identity chain between them, and the `Effect`s.
- `Shutdown`: `delete_peer`, `handle_shutdown` and the timeout exit.
- `Onboarding`: the five onboarding functions and the argument unpacking, as fail-fast
  stages. `RunStages` composes them, and `Accepts` describes independently what each
  stage needs from the outside world.
- `Liveness`: `run_websocket` as a step machine over events. The events are the
  connection opening, a server message at time t, one heartbeat iteration at time t, a
  connection error, the connection closing, and a signal. A heartbeat iteration records
  whether its send was delivered, and whether its clean-up request raises should it find
  the silence overdue.
- `Process`: the main block as a whole: onboarding, then supervision, with signals able
  to arrive in between.
- `Seqs`: two facts about sequence concatenation.

Where the code differs from the natural reading of its documentation, the model
follows the code:

- `"0.00 Mbps"` yields zero through `float("0.00")`. The 0.0 default is used only when
  the text has no digit or dot at all.
- The delete request identifies the peer by `clusterId` and `netbirdIP`, never by the
  peer id. A signal after the tunnel is up deletes even if `register_peer` never returned.
- `last_message_time` starts when `run_websocket` is entered, before the connection opens.
- When the connection closes, `run_forever` returns and the process ends with status 0
  without deleting the peer.
- A failed heartbeat send ends the heartbeat thread. From then on nothing can time out.
- On the timeout path, `delete_peer()` and `os._exit(1)` sit outside the `try`. A delete
  request that raises ends the heartbeat thread before it reaches `os._exit(1)`. The
  process then stays up with no heartbeat and no liveness check.

## Model

| member | source | states |
|---|---|---|
| `Numeric.SearchRun` | windows_linux/app.py:199 | the search finds nothing iff no character of the text is a digit or '.'; otherwise it returns the leftmost maximal such run |
| `Numeric.ParseDecimal` | windows_linux/app.py:200 | `float()` of a digits-and-dots token succeeds iff it has at most one dot and at least one digit; otherwise it raises ValueError |
| `Numeric.ExtractNumeric` | windows_linux/app.py:197-200 | text with no digit or dot yields the 0.0 default; the only failure is ValueError, and it needs a run to exist |
| `Numeric.ExtractNumericReadsFirstRun` | windows_linux/app.py:199-200 | the result is `float()` of exactly the first maximal `[\d.]` run, wherever it sits |
| `Numeric.FirstRunUnique` | windows_linux/app.py:199 | the leftmost maximal run is unique, so the search result is well defined |
| `Numeric.ExtractNumericSkipsPrefix` | windows_linux/app.py:199 | a prefix with no digit or dot (a minus sign, a label) does not change the result, so no value is negated |
| `Numeric.DigitsRoundTrip` | windows_linux/app.py:199 | reading back the decimal rendering of a natural number gives the number |
| `Numeric.ParseRendered` | windows_linux/app.py:200 | `float()` of a rendered "n.frac" is n scaled by the fraction length plus the fraction |
| `Numeric.ParseRenderedWhole` | windows_linux/app.py:200 | `float()` of a rendered whole number is that number |
| `Numeric.ExtractRendered` | windows_linux/app.py:197-200 | a rendered quantity followed by a unit extracts back to its exact value |
| `Numeric.ExtractNumericRamExample` | windows_linux/app.py:198 | "34.36 GB" gives 34.36 |
| `Numeric.ExtractNumericZeroExample` | windows_linux/app.py:198-200 | "0.00 Mbps" gives zero through a found run, not through the default |
| `Numeric.ExtractNumericSignExample` | windows_linux/app.py:199 | "-12 dBm" gives 12: the sign is not in the character class |
| `Numeric.ExtractNumericMalformedExample` | windows_linux/app.py:200 | ". GB" and "1.2.3" raise ValueError instead of yielding 0.0 |
| `Numeric.ParseDecimalValue` | windows_linux/app.py:200 | `float()` of "w.f" for any digit strings w and f, not both empty (".5", "5.", "007.25"), is the decimal with units w·10^len(f) + f and len(f) fraction digits |
| `Numeric.ParseDecimalWhole` | windows_linux/app.py:200 | `float()` of any non-empty digit string, leading zeros included, is its digits' value |
| `Numeric.ExtractDecimal` | windows_linux/app.py:197-200 | a quantity "w.f" followed by a unit that does not start with a digit or dot extracts to that decimal |
| `Numeric.ExtractWhole` | windows_linux/app.py:197-200 | a whole quantity followed by such a unit extracts to its digits' value |
| `Numeric.ExtractNumericLeadingDotExample` | windows_linux/app.py:199-200 | ".5 GB" gives 0.5: the run may start with the dot |
| `Numeric.ExtractNumericLeadingZerosExample` | windows_linux/app.py:199-200 | "007 Mbps" gives 7: leading zeros are read, not rejected |
| `DecimalValue.ShiftedValue` | windows_linux/app.py:200 | the decimal `float()` returns for "w.f" stands for the number w + f / 10^len(f) |
| `DecimalValue.WholeValue` | windows_linux/app.py:200 | a decimal with no fraction digits stands for its units |
| `DecimalValue.ZeroValue` | windows_linux/app.py:200 | zero with any number of fraction digits ("0.00") is the number 0 |
| `DecimalValue.TrailingZeros` | windows_linux/app.py:200 | trailing zeros in the fraction do not change the number, as `float("34.360") == float("34.36")` |
| `DecimalValue.RamReadingValue` | windows_linux/app.py:197-200 | "34.36 GB" extracts to the number 34.36 |
| `DecimalValue.ZeroReadingValue` | windows_linux/app.py:197-200 | "0.00 Mbps" extracts to the number 0 |
| `DecimalValue.SignReadingValue` | windows_linux/app.py:197-200 | "-12 dBm" extracts to the number 12 |
| `DecimalValue.LeadingDotReadingValue` | windows_linux/app.py:197-200 | ".5 GB" extracts to the number 0.5 |
| `DecimalValue.LeadingZerosReadingValue` | windows_linux/app.py:197-200 | "007 Mbps" extracts to the number 7 |
| `StatusParse.MatchAtIff` | windows_linux/app.py:166 | the pattern matches at position p with groups q iff an independently described NetBird IP line with address q starts at p |
| `StatusParse.SearchFromLeftmost` | windows_linux/app.py:166 | what the search returns is the match at the leftmost matching position |
| `StatusParse.SearchFromNone` | windows_linux/app.py:166-167 | the search finds nothing iff the pattern matches at no position |
| `StatusParse.ExtractIpSpec` | windows_linux/app.py:166-172 | extraction succeeds iff the status text holds a NetBird IP line, and then returns the address of the leftmost such line |
| `StatusParse.ExtractedIpLength` | windows_linux/app.py:166-168 | an extracted address has at least seven characters |
| `StatusParse.ExtractIpRoundTrip` | windows_linux/app.py:166-168 | rendering a status line from four digit groups and extracting from it returns the dotted address |
| `StatusParse.ExtractIpTypicalExample` | windows_linux/app.py:166-168 | "NetBird IP: 100.64.0.5/16" gives "100.64.0.5" |
| `StatusParse.ExtractIpNoRangeCheckExample` | windows_linux/app.py:166 | groups above 255 are accepted |
| `StatusParse.ExtractIpFiveGroupsExample` | windows_linux/app.py:166 | with five dotted groups the match ends after the fourth |
| `PyJson.Get` | windows_linux/app.py:107 | `.get` succeeds iff the value is a dict, and returns the key's value or the default |
| `PyJson.First` | windows_linux/app.py:107 | `[0]` of a list succeeds iff the list is non-empty and gives its first element; any success needs a truthy value |
| `Shutdown.DeletePeer` | windows_linux/app.py:231-247 | at most one request, sent iff device id, cluster id and IP are all truthy, and carrying those three values |
| `Shutdown.DeletePeerRaising` | windows_linux/app.py:231-242 | when `requests.delete` raises, the same guard decides whether a request is attempted, it carries the same three values, and no completed delete is recorded |
| `Shutdown.HandleShutdown` | windows_linux/app.py:249-253 | exits 0 after exactly `delete_peer`'s effects: one delete when device id, cluster id and IP are all truthy, none otherwise, and nothing else |
| `Shutdown.TimeoutShutdown` | windows_linux/app.py:294-297 | exits 1 after exactly `delete_peer`'s effects: one delete when device id, cluster id and IP are all truthy, none otherwise, and nothing else |
| `Shutdown.DeletePeerIgnoresPeerId` | windows_linux/app.py:233 | the guard does not depend on the peer id |
| `Shutdown.DeletePeerNoOpBeforeTunnel` | windows_linux/app.py:233-235 | without a NetBird IP nothing is deleted and a signal exits 0 silently |
| `Onboarding.ParseArguments` | windows_linux/app.py:313 | unpacking `argv[1:3]` succeeds iff there are at least three arguments, and sets device id and token to argv[1] and argv[2] |
| `Onboarding.FetchCluster` | windows_linux/app.py:92-112 | continues iff the 200 reply lists a first cluster whose `_id` is truthy, and keeps that `_id`; non-200, an empty list, or a missing key each end it |
| `Onboarding.FetchSetupKey` | windows_linux/app.py:114-134 | continues iff the 200 reply has a truthy `setupKey`, and then passes it on; a failure changes no global |
| `Onboarding.InstallNetbird` | windows_linux/app.py:136-172 | status runs only after a successful up; continues iff both commands exit 0 and the status holds an IP line, and then sets the extracted address |
| `Onboarding.RegisterPeer` | windows_linux/app.py:174-195 | posts the cluster id and IP; continues iff the 200 reply has a truthy `peerId`, and keeps it |
| `Onboarding.RegisterMachine` | windows_linux/app.py:202-229 | the post is made iff the profile exists and its three readings convert, with the payload built from peer id, IP, device id and the numbers the readings convert to; continues iff the reply is 200 |
| `Onboarding.StageExtendsChain` | windows_linux/app.py:313-319 | each stage entered after its predecessors keeps the identity chain, extends it by its own identity, and tags its effects with its stage |
| `Onboarding.RunStages` | windows_linux/app.py:311-319 | the identity chain holds after every prefix of stages: a peer id implies an IP, which implies a setup key, which implies a cluster id |
| `Onboarding.StagesInOrder` | windows_linux/app.py:313-319 | every effect comes from a reached stage, none from a stage after a halt, and they appear in stage order |
| `Onboarding.RunningIffAccepted` | windows_linux/app.py:313-319 | the first n stages complete iff each of them is given what it accepts |
| `Onboarding.HaltIsFinal` | windows_linux/app.py:313-319 | once a stage exits, later stages change neither state nor trace |
| `Onboarding.OnboardSucceedsIff` | windows_linux/app.py:313-322 | the websocket stage is reached iff all six stages accept their inputs |
| `Onboarding.OnboardedSession` | windows_linux/app.py:313-318 | after onboarding, each global holds the value its stage obtained from its input |
| `Onboarding.OnboardedTrace` | windows_linux/app.py:313-319 | onboarding makes exactly six calls, in order, each with the values the previous stages produced |
| `Liveness.Start` | windows_linux/app.py:266-270 | the silence clock starts at the time the connection is requested, before it opens; the start state is still connecting and no heartbeat thread has been started, requests the watch connection and deletes nothing |
| `Liveness.Step` | windows_linux/app.py:272-298 | a message moves `last` to its time and does nothing else, and nothing else moves `last`; it exits 1 iff a running heartbeat was delivered more than 30 s after `last` and its delete did not raise; a signal exits 0 after exactly `delete_peer`'s effects; a closed connection exits 0 with no effect; a failed send on a running heartbeat thread ends the thread, with no effect and no exit; at most one completed delete, and only on the way out |
| `Liveness.StepEffects` | windows_linux/app.py:288-296 | a step's only delete is the one `delete_peer` builds from the globals, and its only frame is "10s" |
| `Liveness.Run` | windows_linux/app.py:302-309 | an exited process does nothing more; a live run keeps the globals, and keeps the invariant that a heartbeat thread has been started exactly when the connection has opened (a thread that has broken off leaves the connection open) |
| `Liveness.AtMostOneDelete` | windows_linux/app.py:294-297 | any run completes at most one delete, and only on the way out; an attempt that raised on the timeout path is not counted, so a later signal may still delete |
| `Liveness.DeletesUseSession` | windows_linux/app.py:237-242 | every delete in a run carries the onboarded device id, cluster id and IP |
| `Liveness.KeptAliveNeverTimesOut` | windows_linux/app.py:272-275 | if no delivered heartbeat finds more than 30 s since the latest message, the run never exits 1 |
| `Liveness.StoppedNeverTimesOut` | windows_linux/app.py:287-292 | after a send error ends the heartbeat thread, nothing times out and no frame is sent |
| `Liveness.ConnectingIgnoresHeartbeat` | windows_linux/app.py:283-300 | before `on_open` there is no heartbeat thread, so a heartbeat event changes nothing |
| `Liveness.SilentBeatsWithinTimeout` | windows_linux/app.py:285-298 | in silence, the iterations at 0, 10, 20 and 30 s only send their frames |
| `Liveness.SilenceStopsAtFifthBeat` | windows_linux/app.py:285-298 | in silence, the iteration at 40 s sends its frame, deletes the peer and exits 1 |
| `Liveness.SilenceWithinTimeout` | windows_linux/app.py:285-298 | in silence, iterations at most 30 s after `last` only send frames |
| `Liveness.SilenceStopsAtFirstOverdue` | windows_linux/app.py:285-298 | in silence, the first iteration more than 30 s after `last` stops the node, after one frame per iteration up to it and the delete |
| `Liveness.SomeOverdueHasFirst` | windows_linux/app.py:294 | if some iteration is overdue, there is a first overdue iteration |
| `Liveness.SilenceTimesOutIff` | windows_linux/app.py:285-298 | in silence, the node exits 1 iff some iteration comes more than 30 s after `last` |
| `Liveness.TimeoutBoundary` | windows_linux/app.py:294 | exactly 30 s of silence does not stop the node; 31 s does |
| `Liveness.SendFailureEndsLoop` | windows_linux/app.py:287-292 | a failed send on a running heartbeat thread ends the loop without exiting; from then on the run never exits 1 and sends no frame |
| `Liveness.FailedCleanupKeepsNodeUp` | windows_linux/app.py:285-297 | when the delete of an overdue iteration raises, the frame and the attempted delete are the last heartbeat effects; the process never exits 1 and sends no further frame |
| `Process.OnboardingTraceShape` | windows_linux/app.py:313-319 | onboarding never deletes a peer and never opens the watch connection |
| `Process.Supervise` | windows_linux/app.py:258-309 | supervision first opens the watch connection and deletes at most once, and never while still running; while running it keeps the globals and the invariant that a heartbeat thread has been started exactly when the connection has opened |
| `Process.SlowOpenTimesOut` | windows_linux/app.py:269-270 | because the clock starts before the connection opens, the first delivered heartbeat more than 30 s after the start sends its frame, deletes the peer and exits 1, however late `on_open` came |
| `Process.RunNode` | windows_linux/app.py:311-322 | a failed stage exits 1 with the onboarding trace and no connection; otherwise supervision follows onboarding; at most one delete overall |
| `Process.SuperviseSignal` | windows_linux/app.py:249-253 | a signal during supervision exits 0 after exactly `delete_peer`'s effects |
| `Process.SuperviseClose` | windows_linux/app.py:309 | a closed connection ends the process with status 0 and no further effect |
| `Process.SuperviseSilence` | windows_linux/app.py:283-298 | a server that never speaks, with `on_open` firing at the instant the clock starts: connect, five frames, the delete, exit 1 |
| `Process.SuperviseSilenceWithLatency` | windows_linux/app.py:270-309 | a server that never speaks, with `on_open` firing 0 < d <= 10 s after the clock starts: connect, four frames, the delete, exit 1 |
| `Process.FirstOverdueBeat` | windows_linux/app.py:289-298 | the index of the first heartbeat iteration more than 30 s after the clock starts, when `on_open` fires d s in and iterations follow every 10 s: that iteration is overdue and none before it is |
| `Process.SuperviseSilenceAfterDelay` | windows_linux/app.py:270-309 | for any connect delay d, a silent server gets one frame per iteration up to the first one more than 30 s after the start, then the delete and exit 1 |
| `Process.SignalDuringOnboarding` | windows_linux/app.py:249-256 | a signal during onboarding exits 0 after at most one delete |
| `Process.NoIpBeforeInstall` | windows_linux/app.py:138-168 | no stage before `install_netbird` sets the NetBird IP, whether it completed or failed |
| `Process.DeviceIdFromArgv` | windows_linux/app.py:313 | once the arguments are unpacked, the device id is argv[1] and stays so |
| `Process.SignalBeforeTunnelDeletesNothing` | windows_linux/app.py:233-235 | a signal before the tunnel is up exits 0 without any request |
| `Process.SignalAfterTunnelDeletes` | windows_linux/app.py:233-242 | a signal once the tunnel is up deletes exactly when argv[1] is non-empty, even before a peer id exists |
| `Process.OnboardedDelete` | windows_linux/app.py:237-242 | after onboarding, clean-up deletes using argv[1], the listed cluster's `_id` and the extracted address |
| `Process.SignalAfterOnboarding` | windows_linux/app.py:249-253 | after onboarding, a signal exits 0 right after that delete |
| `Process.CloseLeavesPeerRegistered` | windows_linux/app.py:280-281 | after onboarding, a closed connection exits 0 and the whole run deletes nothing |
| `Process.SilentServerStopsNode` | windows_linux/app.py:285-298 | after onboarding, a silent server with `on_open` firing at the instant the clock starts leads to connect, five frames, the delete and exit 1 |
| `Process.SilentServerAfterDelayStopsNode` | windows_linux/app.py:270-309 | after onboarding, a silent server whose connection opens d s after the clock starts gets one frame per iteration up to the first overdue one (four when 0 < d <= 10), then the delete and exit 1 |

## Left out

- HTTP and JSON plumbing. URLs, headers, bearer tokens and request bodies are not
  modelled. Each call is an `Effect`, and each reply is an input (`Response`): a
  status, a decoded body or none, or a transport failure (`NoReply`).
- `get_system_info` and the eligibility payload are not modelled. psutil, platform
  and socket queries are opaque. `register_machine` receives the rendered profile
  fields as strings. A `machineConfig` that lacks those fields is modelled as an
  absent profile, which raises KeyError.
- Conversion by `str()`: the numeric fields are taken as the strings `str()` would
  produce.
- `float()` rounding and overflow: values are exact decimals.
- Non-ASCII digits: only ASCII digits count as `\d`, whereas Python's `\d` also
  matches other Unicode decimal digits.
- The subprocess calls, their shell text, and the stderr of both netbird commands.
  Only the exit status and stdout are inputs.
- Logging, including the delete's status check, which only decides what is logged.
- Threads and races. Events are interleaved one at a time, so a signal racing the
  timeout branch, or `last_message_time` being updated while it is read, is not
  represented. A signal during onboarding is modelled only at stage boundaries.
- A second `on_open`, which would start a second heartbeat thread; the model ignores it.
- Time is whole seconds, not a float clock. `time.sleep(10)` is not enforced: the
  events say when each iteration happens.
- A transport exception from the delete request inside `handle_shutdown`. It is raised in
  the main thread at whatever point the signal interrupted, and its effect there depends
  on the websocket library. The timeout path's exception is modelled.
- The API token is passed along but never inspected, and it is not part of the
  delete effect.
- `app/nidum/viz/topology_viz.py` and `app/scripts/build_nidum.py` are not part of
  this model (a logging sink and a build script).

=== FILE: decimal_value.dfy ===
/**
 The number behind a Decimal. `extract_numeric` returns a float, and the machine
 payload carries that number, not the digits it was read from.
 */
module DecimalValue {
  import opened Numeric

  /** The number a Decimal stands for; Decimal(3436, 2) and Decimal(34360, 3) are both 34.36. */
  function Value(d: Decimal): real {
    d.units as real / Pow10(d.places) as real
  }

  /** The Decimal with whole part a and a k-digit fraction b stands for a + b / 10^k. */
  lemma ShiftedValue(a: nat, b: nat, p: nat, k: nat)
    requires p == Pow10(k)
    ensures Value(Decimal(a * p + b, k)) == a as real + b as real / p as real
  {
    IntToReal(a, p, b);
    DivShift(a as real, b as real, p as real);
  }

  /** A Decimal with no fraction digits stands for its units. */
  lemma WholeValue(u: nat)
    ensures Value(Decimal(u, 0)) == u as real
  {
    assert Pow10(0) == 1;
  }

  /** Zero, whatever number of fraction digits it is written with. */
  lemma ZeroValue(k: nat)
    ensures Value(Decimal(0, k)) == 0.0
  {
    DivZero(Pow10(k) as real);
  }

  /** Trailing zeros in the fraction do not change the number: 34.36 and 34.360 are equal. */
  lemma TrailingZeros(d: Decimal, k: nat)
    ensures Value(Decimal(d.units * Pow10(k), d.places + k)) == Value(d)
  {
    var a, p, q := d.units, Pow10(d.places), Pow10(k);
    Pow10Add(d.places, k);
    MulToReal(a, q);
    MulToReal(p, q);
    DivCancel(a as real, p as real, q as real);
  }

  /** "34.36 GB" reads as the number 34.36. */
  lemma RamReadingValue()
    ensures ExtractNumeric("34.36 GB").Success? && Value(ExtractNumeric("34.36 GB").value) == 34.36
  {
    ExtractNumericRamExample();
    assert Value(Decimal(3436, 2)) == 34.36 by { assert Pow10(2) == 100; }
  }

  /** "0.00 Mbps" reads as the number 0. */
  lemma ZeroReadingValue()
    ensures ExtractNumeric("0.00 Mbps").Success? && Value(ExtractNumeric("0.00 Mbps").value) == 0.0
  {
    ExtractNumericZeroExample();
    ZeroValue(2);
  }

  /** "-12 dBm" reads as the number 12, not -12. */
  lemma SignReadingValue()
    ensures ExtractNumeric("-12 dBm").Success? && Value(ExtractNumeric("-12 dBm").value) == 12.0
  {
    ExtractNumericSignExample();
    WholeValue(12);
  }

  /** ".5 GB" reads as the number 0.5. */
  lemma LeadingDotReadingValue()
    ensures ExtractNumeric(".5 GB").Success? && Value(ExtractNumeric(".5 GB").value) == 0.5
  {
    ExtractNumericLeadingDotExample();
    assert Value(Decimal(5, 1)) == 0.5 by { assert Pow10(1) == 10; }
  }

  /** "007 Mbps" reads as the number 7. */
  lemma LeadingZerosReadingValue()
    ensures ExtractNumeric("007 Mbps").Success? && Value(ExtractNumeric("007 Mbps").value) == 7.0
  {
    ExtractNumericLeadingZerosExample();
    WholeValue(7);
  }

  lemma DivZero(p: real)
    requires p != 0.0
    ensures 0.0 / p == 0.0
  {
  }

  lemma MulToReal(a: int, b: int)
    ensures (a * b) as real == a as real * b as real
  {
  }

  lemma IntToReal(a: int, p: int, b: int)
    ensures (a * p + b) as real == a as real * p as real + b as real
  {
  }

  lemma DivShift(x: real, y: real, p: real)
    requires p > 0.0
    ensures (x * p + y) / p == x + y / p
  {
    var q := y / p;
    assert y == q * p;
    assert x * p + y == (x + q) * p;
  }

  lemma DivCancel(u: real, p: real, q: real)
    requires p > 0.0 && q > 0.0
    ensures (u * q) / (p * q) == u / p
  {
    var r := u / p;
    assert u == r * p;
    assert u * q == r * (p * q);
  }
}

=== FILE: liveness.dfy ===
/**
 run_websocket(): the watch connection and its heartbeat thread, as a machine that
 reacts to one event at a time. Time is an integer number of seconds read from the
 clock when the event happens.
 */
module Liveness {
  import opened Node
  import opened Shutdown
  import opened Seqs

  /** The heartbeat thread sleeps this many seconds between iterations. */
  const HeartbeatInterval := 10
  /** Silence longer than this many seconds stops the container. */
  const LivenessTimeout := 30
  /** The text frame the heartbeat thread sends. */
  const HeartbeatPayload: string := "10s"

  /** Whether on_open has fired yet. */
  datatype Conn = Connecting | Open

  /** The heartbeat thread: not started, looping, or ended by a send error. */
  datatype Pulse = Idle | Beating | Stopped

  /** The live state: the onboarded globals, `last_message_time`, the connection and the heartbeat thread. */
  datatype Supervisor = Supervisor(g: Session, last: int, conn: Conn, pulse: Pulse)

  datatype Proc = Live(sup: Supervisor) | Exited(code: int)

  /**
   What can happen while run_forever() is running:
   - Opened: on_open fires and starts the heartbeat thread;
   - Inbound(t): on_message fires at time t;
   - Heartbeat(t, delivered, deleteRaises): one iteration of the heartbeat loop at
     time t, whose ws.send either went through or raised, and whose clean-up request,
     should the iteration find the silence overdue, either returns or raises;
   - ConnError: on_error fires (it only logs);
   - ConnClosed: run_forever() returns, so the main block ends;
   - Signal: SIGTERM or SIGINT reaches handle_shutdown.
   */
  datatype Event =
    | Opened
    | Inbound(t: int)
    | Heartbeat(t: int, delivered: bool, deleteRaises: bool)
    | ConnError
    | ConnClosed
    | Signal

  datatype StepResult = StepResult(p: Proc, effects: seq<Effect>)

  /**
   The state in which run_websocket starts: the silence clock starts when the watch
   connection is requested, before it opens, and no heartbeat thread has been started.
   */
  function Start(g: Session, now: int): (r: StepResult)
    ensures r.p.Live? && r.p.sup.g == g && r.p.sup.last == now
    ensures Valid(r.p.sup) && r.p.sup.pulse == Idle && r.p.sup.conn == Connecting
    ensures OpenWatch(g.deviceId, g.clusterId) in r.effects && Deletes(r.effects) == 0
  {
    StepResult(Live(Supervisor(g, now, Connecting, Idle)), [OpenWatch(g.deviceId, g.clusterId)])
  }

  /** A heartbeat thread has been started exactly when the connection has opened. */
  predicate Valid(sup: Supervisor) {
    sup.pulse == Idle <==> sup.conn == Connecting
  }

  /** A heartbeat iteration at time t finds the connection silent for too long. */
  predicate Overdue(sup: Supervisor, t: int) {
    t - sup.last > LivenessTimeout
  }

  /**
   One event. An exited process does nothing more. A delete request that raises inside
   the heartbeat thread ends that thread before it reaches os._exit(1), so the process
   stays up with no heartbeat.
   */
  function Step(p: Proc, e: Event): (r: StepResult)
    ensures p.Exited? ==> r == StepResult(p, [])
    ensures p.Live? && r.p.Live? ==> r.p.sup.g == p.sup.g
    ensures p.Live? && r.p.Live? && r.p.sup.last != p.sup.last ==> e.Inbound? && r.p.sup.last == e.t
    ensures p.Live? && e.Inbound? ==> r == StepResult(Live(p.sup.(last := e.t)), [])
    ensures p.Live? && Valid(p.sup) && r.p.Live? ==> Valid(r.p.sup)
    ensures p.Live? && p.sup.pulse == Beating && e.Heartbeat? && !e.delivered
      ==> r == StepResult(Live(p.sup.(pulse := Stopped)), [])
    ensures p.Live? ==>
      (r.p == Exited(TimeoutExitCode) <==>
         && p.sup.pulse == Beating && e.Heartbeat? && e.delivered && Overdue(p.sup, e.t)
         && !(e.deleteRaises && DeletePeer(p.sup.g) != []))
    ensures p.Live? && e.Signal? ==> r == StepResult(Exited(SignalExitCode), DeletePeer(p.sup.g))
    ensures p.Live? && e.ConnClosed? ==> r == StepResult(Exited(CleanExitCode), [])
    ensures p.Live? && r.p.Exited? && !e.Signal? && !e.ConnClosed? ==> r.p == Exited(TimeoutExitCode)
    ensures r.p.Exited? || Deletes(r.effects) == 0
    ensures Deletes(r.effects) <= 1
  {
    match p
    case Exited(_) => StepResult(p, [])
    case Live(sup) =>
      match e
      case Opened =>
        if sup.conn == Connecting then StepResult(Live(sup.(conn := Open, pulse := Beating)), [])
        else StepResult(p, [])
      case Inbound(t) => StepResult(Live(sup.(last := t)), [])
      case Heartbeat(t, delivered, deleteRaises) =>
        if sup.pulse != Beating then StepResult(p, [])
        else if !delivered then StepResult(Live(sup.(pulse := Stopped)), [])
        else if Overdue(sup, t) && deleteRaises && DeletePeer(sup.g) != [] then
          StepResult(Live(sup.(pulse := Stopped)), [SendHeartbeat(HeartbeatPayload)] + DeletePeerRaising(sup.g))
        else if Overdue(sup, t) then
          var x := TimeoutShutdown(sup.g);
          StepResult(Exited(x.code), [SendHeartbeat(HeartbeatPayload)] + x.effects)
        else StepResult(p, [SendHeartbeat(HeartbeatPayload)])
      case ConnError => StepResult(p, [])
      case ConnClosed => StepResult(Exited(CleanExitCode), [])
      case Signal =>
        var x := HandleShutdown(sup.g);
        StepResult(Exited(x.code), x.effects)
  }

  /**
   The only delete one event can issue is the one delete_peer builds from the onboarded
   globals, and the only frame it sends is the heartbeat text.
   */
  lemma StepEffects(p: Proc, e: Event)
    ensures forall x :: x in Step(p, e).effects && x.DeletePeerRequest? ==> p.Live? && x in DeletePeer(p.sup.g)
    ensures forall x :: x in Step(p, e).effects && x.SendHeartbeat? ==> x.payload == HeartbeatPayload
  {
  }

  /** A sequence of events, one after another. */
  function Run(p: Proc, evs: seq<Event>): (r: StepResult)
    ensures p.Exited? ==> r == StepResult(p, [])
    ensures p.Live? && r.p.Live? ==> r.p.sup.g == p.sup.g
    ensures p.Live? && Valid(p.sup) && r.p.Live? ==> Valid(r.p.sup)
    decreases |evs|
  {
    if |evs| == 0 then StepResult(p, [])
    else
      var first := Step(p, evs[0]);
      var rest := Run(first.p, evs[1..]);
      StepResult(rest.p, first.effects + rest.effects)
  }

  lemma {:induction false} RunAppend(p: Proc, a: seq<Event>, b: seq<Event>)
    ensures Run(p, a + b).p == Run(Run(p, a).p, b).p
    ensures Run(p, a + b).effects == Run(p, a).effects + Run(Run(p, a).p, b).effects
    decreases |a|
  {
    if |a| == 0 {
      assert a + b == b;
    } else {
      var first := Step(p, a[0]);
      SplitHead(a, b);
      RunAppend(first.p, a[1..], b);
      var x, y := Run(first.p, a[1..]), Run(Run(p, a).p, b);
      Associate(first.effects, x.effects, y.effects);
    }
  }

  /** A run of one event is that event's step. */
  lemma RunOne(p: Proc, e: Event)
    ensures Run(p, [e]) == Step(p, e)
  {
    assert [e][1..] == [];
    assert Step(p, e).effects + [] == Step(p, e).effects;
  }

  /** However many events arrive, the peer is deleted at most once. */
  lemma {:induction false} AtMostOneDelete(p: Proc, evs: seq<Event>)
    ensures Deletes(Run(p, evs).effects) <= 1
    ensures Deletes(Run(p, evs).effects) == 1 ==> Run(p, evs).p.Exited?
    decreases |evs|
  {
    if |evs| > 0 {
      var first := Step(p, evs[0]);
      AtMostOneDelete(first.p, evs[1..]);
      DeletesAppend(first.effects, Run(first.p, evs[1..]).effects);
    }
  }

  /** Every delete request a run issues is the one delete_peer builds from the onboarded globals. */
  lemma {:induction false} DeletesUseSession(sup: Supervisor, evs: seq<Event>)
    ensures forall x :: x in Run(Live(sup), evs).effects && x.DeletePeerRequest? ==> x in DeletePeer(sup.g)
    decreases |evs|
  {
    if |evs| > 0 {
      var first := Step(Live(sup), evs[0]);
      StepEffects(Live(sup), evs[0]);
      if first.p.Live? {
        DeletesUseSession(first.p.sup, evs[1..]);
      }
    }
  }

  /**
   Messages keep the node alive: replaying the events with only the message clock,
   no delivered heartbeat finds more than 30 seconds of silence.
   */
  predicate KeptAlive(last: int, evs: seq<Event>)
    decreases |evs|
  {
    if |evs| == 0 then true
    else match evs[0]
      case Inbound(t) => KeptAlive(t, evs[1..])
      case Heartbeat(t, delivered, _) => (delivered ==> t - last <= LivenessTimeout) && KeptAlive(last, evs[1..])
      case _ => KeptAlive(last, evs[1..])
  }

  /** A node that keeps hearing from the server is never stopped by the liveness check. */
  lemma {:induction false} KeptAliveNeverTimesOut(sup: Supervisor, evs: seq<Event>)
    requires KeptAlive(sup.last, evs)
    ensures Run(Live(sup), evs).p != Exited(TimeoutExitCode)
    decreases |evs|
  {
    if |evs| > 0 {
      var first := Step(Live(sup), evs[0]);
      StepEffects(Live(sup), evs[0]);
      if first.p.Live? {
        KeptAliveNeverTimesOut(first.p.sup, evs[1..]);
      }
    }
  }

  /** Once the heartbeat thread has died on a send error, silence never stops the node. */
  lemma {:induction false} StoppedNeverTimesOut(sup: Supervisor, evs: seq<Event>)
    requires sup.pulse == Stopped && sup.conn == Open
    ensures Run(Live(sup), evs).p != Exited(TimeoutExitCode)
    ensures forall x :: x in Run(Live(sup), evs).effects ==> !x.SendHeartbeat?
    decreases |evs|
  {
    if |evs| > 0 {
      var first := Step(Live(sup), evs[0]);
      StepEffects(Live(sup), evs[0]);
      if first.p.Live? {
        StoppedNeverTimesOut(first.p.sup, evs[1..]);
      }
    }
  }

  /** Before on_open there is no heartbeat thread, so nothing can time out either. */
  lemma ConnectingIgnoresHeartbeat(sup: Supervisor, t: int, delivered: bool, deleteRaises: bool)
    requires sup.pulse == Idle
    ensures Step(Live(sup), Heartbeat(t, delivered, deleteRaises)) == StepResult(Live(sup), [])
  {
  }

  /** Heartbeat iterations every HeartbeatInterval seconds starting at time t0, all delivered. */
  function QuietBeats(t0: int, k: nat): seq<Event>
  {
    seq(k, i => Heartbeat(t0 + HeartbeatInterval * i, true, false))
  }

  /** k copies of the heartbeat frame. */
  function Frames(k: nat): (r: seq<Effect>)
    ensures |r| == k
    ensures forall x :: x in r ==> x == SendHeartbeat(HeartbeatPayload)
  {
    if k == 0 then [] else Frames(k - 1) + [SendHeartbeat(HeartbeatPayload)]
  }

  /** In silence, the first four iterations (at 0, 10, 20 and 30 seconds) only send heartbeats. */
  lemma {:induction false} SilentBeatsWithinTimeout(sup: Supervisor, k: nat)
    requires sup.pulse == Beating && k <= 4
    ensures Run(Live(sup), QuietBeats(sup.last, k)) == StepResult(Live(sup), Frames(k))
  {
    if k > 0 {
      var evs := QuietBeats(sup.last, k);
      assert evs == QuietBeats(sup.last, k - 1) + [Heartbeat(sup.last + HeartbeatInterval * (k - 1), true, false)];
      SilentBeatsWithinTimeout(sup, k - 1);
      RunAppend(Live(sup), QuietBeats(sup.last, k - 1), [Heartbeat(sup.last + HeartbeatInterval * (k - 1), true, false)]);
    }
  }

  /**
   With no message at all, the fifth iteration (40 seconds after the last message) is the
   first to find the silence overdue: it sends its heartbeat, deletes the peer and exits 1.
   */
  lemma SilenceStopsAtFifthBeat(sup: Supervisor)
    requires sup.pulse == Beating
    ensures Run(Live(sup), QuietBeats(sup.last, 5))
      == StepResult(Exited(TimeoutExitCode), Frames(5) + DeletePeer(sup.g))
  {
    var evs := QuietBeats(sup.last, 5);
    assert evs == QuietBeats(sup.last, 4) + [Heartbeat(sup.last + 40, true, false)];
    SilentBeatsWithinTimeout(sup, 4);
    RunAppend(Live(sup), QuietBeats(sup.last, 4), [Heartbeat(sup.last + 40, true, false)]);
    assert Frames(5) + DeletePeer(sup.g) == Frames(4) + ([SendHeartbeat(HeartbeatPayload)] + DeletePeer(sup.g));
  }

  /**
   Only heartbeat iterations whose send went through and whose clean-up request, if one is
   made, returns; and no message from the server.
   */
  predicate SilentBeats(evs: seq<Event>) {
    forall i :: 0 <= i < |evs| ==> evs[i].Heartbeat? && evs[i].delivered && !evs[i].deleteRaises
  }

  /** The i-th iteration is the first to find more than 30 seconds of silence since `last`. */
  predicate FirstOverdue(last: int, evs: seq<Event>, i: int) {
    && 0 <= i < |evs| && evs[i].Heartbeat? && evs[i].t - last > LivenessTimeout
    && forall j :: 0 <= j < i ==> evs[j].Heartbeat? && evs[j].t - last <= LivenessTimeout
  }

  /** In silence with no iteration overdue, each iteration only sends its heartbeat. */
  lemma {:induction false} SilenceWithinTimeout(sup: Supervisor, evs: seq<Event>)
    requires sup.pulse == Beating && SilentBeats(evs)
    requires forall i :: 0 <= i < |evs| ==> evs[i].t - sup.last <= LivenessTimeout
    ensures Run(Live(sup), evs) == StepResult(Live(sup), Frames(|evs|))
    decreases |evs|
  {
    if |evs| > 0 {
      var rest := evs[1..];
      assert Step(Live(sup), evs[0]) == StepResult(Live(sup), [SendHeartbeat(HeartbeatPayload)]);
      forall i | 0 <= i < |rest| ensures rest[i].Heartbeat? && rest[i].delivered && !rest[i].deleteRaises && rest[i].t - sup.last <= LivenessTimeout {
        assert rest[i] == evs[i + 1];
      }
      SilenceWithinTimeout(sup, rest);
      FramesCons(|rest|);
    }
  }

  /**
   In silence, the first iteration that finds the silence overdue stops the node, after
   one heartbeat per iteration up to and including it.
   */
  lemma {:induction false} SilenceStopsAtFirstOverdue(sup: Supervisor, evs: seq<Event>, i: int)
    requires sup.pulse == Beating && SilentBeats(evs) && FirstOverdue(sup.last, evs, i)
    ensures Run(Live(sup), evs) == StepResult(Exited(TimeoutExitCode), Frames(i + 1) + DeletePeer(sup.g))
    decreases |evs|
  {
    var rest := evs[1..];
    if i == 0 {
      assert Step(Live(sup), evs[0])
        == StepResult(Exited(TimeoutExitCode), [SendHeartbeat(HeartbeatPayload)] + DeletePeer(sup.g));
      assert Frames(1) == [SendHeartbeat(HeartbeatPayload)];
    } else {
      assert Step(Live(sup), evs[0]) == StepResult(Live(sup), [SendHeartbeat(HeartbeatPayload)]);
      forall j | 0 <= j < |rest| ensures rest[j].Heartbeat? && rest[j].delivered && !rest[j].deleteRaises {
        assert rest[j] == evs[j + 1];
      }
      forall j | 0 <= j < i - 1 ensures rest[j].Heartbeat? && rest[j].t - sup.last <= LivenessTimeout {
        assert rest[j] == evs[j + 1];
      }
      assert rest[i - 1] == evs[i];
      SilenceStopsAtFirstOverdue(sup, rest, i - 1);
      FramesCons(i);
      assert [SendHeartbeat(HeartbeatPayload)] + (Frames(i) + DeletePeer(sup.g))
          == ([SendHeartbeat(HeartbeatPayload)] + Frames(i)) + DeletePeer(sup.g);
    }
  }

  /** If some iteration finds the silence overdue, there is a first one. */
  lemma {:induction false} SomeOverdueHasFirst(last: int, evs: seq<Event>, k: int)
    requires SilentBeats(evs) && 0 <= k < |evs| && evs[k].t - last > LivenessTimeout
    ensures exists i :: FirstOverdue(last, evs, i)
    decreases |evs|
  {
    if evs[0].t - last > LivenessTimeout {
      assert FirstOverdue(last, evs, 0);
    } else {
      var rest := evs[1..];
      assert rest[k - 1] == evs[k];
      assert SilentBeats(rest) by {
        forall j | 0 <= j < |rest| ensures rest[j].Heartbeat? && rest[j].delivered && !rest[j].deleteRaises {
          assert rest[j] == evs[j + 1];
        }
      }
      SomeOverdueHasFirst(last, rest, k - 1);
      var i :| FirstOverdue(last, rest, i);
      forall j | 0 <= j < i + 1 ensures evs[j].Heartbeat? && evs[j].t - last <= LivenessTimeout {
        if j > 0 {
          assert evs[j] == rest[j - 1];
        }
      }
      assert FirstOverdue(last, evs, i + 1);
    }
  }

  /** In silence, the node is stopped exactly when some iteration finds the silence overdue. */
  lemma {:induction false} SilenceTimesOutIff(sup: Supervisor, evs: seq<Event>)
    requires sup.pulse == Beating && SilentBeats(evs)
    ensures Run(Live(sup), evs).p == Exited(TimeoutExitCode)
      <==> exists k :: 0 <= k < |evs| && evs[k].t - sup.last > LivenessTimeout
  {
    if k :| 0 <= k < |evs| && evs[k].t - sup.last > LivenessTimeout {
      SomeOverdueHasFirst(sup.last, evs, k);
      var i :| FirstOverdue(sup.last, evs, i);
      SilenceStopsAtFirstOverdue(sup, evs, i);
    } else {
      SilenceWithinTimeout(sup, evs);
    }
  }

  /** One more heartbeat in front of k of them is k + 1 of them. */
  lemma {:induction false} FramesCons(k: nat)
    ensures [SendHeartbeat(HeartbeatPayload)] + Frames(k) == Frames(k + 1)
  {
    if k > 0 {
      FramesCons(k - 1);
      assert [SendHeartbeat(HeartbeatPayload)] + Frames(k) == ([SendHeartbeat(HeartbeatPayload)] + Frames(k - 1)) + [SendHeartbeat(HeartbeatPayload)];
    }
  }

  /** Exactly 30 seconds of silence is not overdue; one more second is. */
  lemma TimeoutBoundary(sup: Supervisor)
    requires sup.pulse == Beating
    ensures Step(Live(sup), Heartbeat(sup.last + LivenessTimeout, true, false)).p.Live?
    ensures Step(Live(sup), Heartbeat(sup.last + LivenessTimeout + 1, true, false)).p == Exited(TimeoutExitCode)
  {
  }

  /**
   When the clean-up request of an overdue iteration raises, the exception ends the
   heartbeat thread before os._exit(1): the process stays up, no heartbeat is sent any
   more, and no later event stops it for silence.
   */
  lemma FailedCleanupKeepsNodeUp(sup: Supervisor, t: int, evs: seq<Event>)
    requires Valid(sup) && sup.pulse == Beating && Overdue(sup, t) && DeletePeer(sup.g) != []
    ensures var r := Run(Live(sup), [Heartbeat(t, true, true)] + evs);
      && r.p != Exited(TimeoutExitCode)
      && |r.effects| >= 2
      && r.effects[..2] == [SendHeartbeat(HeartbeatPayload)] + DeletePeerRaising(sup.g)
      && forall x :: x in r.effects[2..] ==> !x.SendHeartbeat?
  {
    var e := Heartbeat(t, true, true);
    var stopped := sup.(pulse := Stopped);
    RunAppend(Live(sup), [e], evs);
    RunOne(Live(sup), e);
    StoppedNeverTimesOut(stopped, evs);
    var first := [SendHeartbeat(HeartbeatPayload)] + DeletePeerRaising(sup.g);
    var later := Run(Live(stopped), evs).effects;
    assert (first + later)[..2] == first && (first + later)[2..] == later;
  }

  /**
   A failed send ends the heartbeat loop without exiting: the process stays up, no frame
   is sent any more, and no later event stops it for silence.
   */
  lemma SendFailureEndsLoop(sup: Supervisor, t: int, x: bool, evs: seq<Event>)
    requires Valid(sup) && sup.pulse == Beating
    ensures Step(Live(sup), Heartbeat(t, false, x)) == StepResult(Live(sup.(pulse := Stopped)), [])
    ensures var r := Run(Live(sup), [Heartbeat(t, false, x)] + evs);
      && r.p != Exited(TimeoutExitCode)
      && forall y :: y in r.effects ==> !y.SendHeartbeat?
  {
    var e := Heartbeat(t, false, x);
    RunAppend(Live(sup), [e], evs);
    RunOne(Live(sup), e);
    StoppedNeverTimesOut(sup.(pulse := Stopped), evs);
    assert [] + Run(Live(sup.(pulse := Stopped)), evs).effects == Run(Live(sup.(pulse := Stopped)), evs).effects;
  }
}

=== FILE: node.dfy ===
/**
 The state the onboarding script keeps in module-level globals and the observable
 effects it has on the outside world (HTTP requests, netbird commands, websocket frames).
 */
module Node {
  import opened Wrappers
  import opened PyJson

  /**
   The globals `device_id`, `api_token`, `cluster_id`, `netbird_ip` and `peer_id`,
   plus the `setup_key` local of the main block. Python's `None` is `None`/`JNull`.
   `cluster_id` and `peer_id` hold whatever JSON value the server sent.
   */
  datatype Session = Session(
    deviceId: Option<string>,
    apiToken: Option<string>,
    clusterId: Json,
    setupKey: Json,
    netbirdIp: Option<string>,
    peerId: Json)

  /** All globals are `None` when the module is loaded. */
  const Initial: Session := Session(None, None, JNull, JNull, None, JNull)

  /** Truthiness of an optional string: present and non-empty. */
  predicate Present(o: Option<string>) {
    o.Some? && |o.value| > 0
  }

  /**
   The happens-before chain of identities: a peer id is only ever assigned once the
   NetBird IP exists, the IP once a setup key was obtained, the setup key once a
   cluster id was selected, and the cluster id once the device id was read.
   */
  predicate Chain(s: Session) {
    && (s.peerId != JNull ==> s.netbirdIp.Some?)
    && (s.netbirdIp.Some? ==> Truthy(s.setupKey))
    && (s.setupKey != JNull ==> Truthy(s.clusterId))
    && (s.clusterId != JNull ==> s.deviceId.Some?)
  }

  /** The `machineInfo` object of the machine-registration payload. */
  datatype MachineInfo = MachineInfo(
    machineId: Json,
    bandwidth: real,
    ram: real,
    connectionSpeed: real,
    system: string,
    ip: Option<string>,
    appId: Option<string>)

  /** What the process does to the outside world, in the order it does it. */
  datatype Effect =
    | PostEligibility(deviceId: Option<string>)
    | GetSetupKey(deviceId: Option<string>, clusterId: Json)
    | RunNetbirdUp(setupKey: Json)
    | RunNetbirdStatus
    | PostPeer(deviceId: Option<string>, clusterId: Json, netbirdIp: Option<string>)
    | PostMachine(clusterId: Json, info: MachineInfo)
    | OpenWatch(deviceId: Option<string>, clusterId: Json)
    | SendHeartbeat(payload: string)
    | DeletePeerRequest(device: string, clusterId: Json, address: string)
    | DeletePeerFailed(device: string, clusterId: Json, address: string)

  /**
   Number of peer-deletion requests in a trace that delete_peer completed; a
   DeletePeerFailed is a request whose call raised instead of returning.
   */
  function Deletes(trace: seq<Effect>): nat {
    if |trace| == 0 then 0
    else (if trace[|trace| - 1].DeletePeerRequest? then 1 else 0) + Deletes(trace[..|trace| - 1])
  }

  lemma {:induction false} DeletesAppend(a: seq<Effect>, b: seq<Effect>)
    ensures Deletes(a + b) == Deletes(a) + Deletes(b)
    decreases |b|
  {
    if |b| == 0 {
      assert a + b == a;
    } else {
      assert (a + b)[..|a + b| - 1] == a + b[..|b| - 1];
      DeletesAppend(a, b[..|b| - 1]);
    }
  }
}

=== FILE: numeric.dfy ===
/**
 `extract_numeric` from the onboarding script: `re.search(r"([\d.]+)", s)` followed by
 `float()` on the matched run, with 0.0 when nothing matches. The number is kept as
 an exact decimal instead of a binary float.
 */
module Numeric {
  import opened Wrappers
  import opened PyJson

  /** The exact number units / 10^places, e.g. Decimal(3436, 2) for 34.36. */
  datatype Decimal = Decimal(units: nat, places: nat)

  /** The 0.0 that extract_numeric returns when there is no run. */
  const Zero := Decimal(0, 0)

  predicate IsDigit(c: char) {
    '0' <= c <= '9'
  }

  /** The regex character class `[\d.]`. */
  predicate InClass(c: char) {
    IsDigit(c) || c == '.'
  }

  predicate AllDigits(s: string) {
    forall i :: 0 <= i < |s| ==> IsDigit(s[i])
  }

  predicate AllInClass(s: string) {
    forall i :: 0 <= i < |s| ==> InClass(s[i])
  }

  predicate NoneInClass(s: string) {
    forall i :: 0 <= i < |s| ==> !InClass(s[i])
  }

  predicate HasDigit(s: string) {
    exists i :: 0 <= i < |s| && IsDigit(s[i])
  }

  /** s[i..j] is the leftmost maximal run of `[\d.]` characters in s. */
  predicate IsFirstRun(s: string, i: nat, j: nat) {
    && i < j <= |s|
    && NoneInClass(s[..i])
    && AllInClass(s[i..j])
    && (j == |s| || !InClass(s[j]))
  }

  /** Number of '.' characters in s. */
  function CountDots(s: string): nat {
    if |s| == 0 then 0 else (if s[0] == '.' then 1 else 0) + CountDots(s[1..])
  }

  function Pow10(n: nat): (r: nat)
    ensures r > 0
  {
    if n == 0 then 1 else 10 * Pow10(n - 1)
  }

  function DigitValue(c: char): nat
    requires IsDigit(c)
  {
    c as int - '0' as int
  }

  /** The value of a string of decimal digits; the empty string is worth 0. */
  function DigitsValue(d: string): nat
    requires AllDigits(d)
  {
    if |d| == 0 then 0 else DigitsValue(d[..|d| - 1]) * 10 + DigitValue(d[|d| - 1])
  }

  /** The first index at or after i whose character is in the class, or |s|. */
  function SkipOthers(s: string, i: nat): (k: nat)
    requires i <= |s|
    ensures i <= k <= |s|
    ensures forall j :: i <= j < k ==> !InClass(s[j])
    ensures k < |s| ==> InClass(s[k])
    decreases |s| - i
  {
    if i == |s| || InClass(s[i]) then i else SkipOthers(s, i + 1)
  }

  /** The end of the greedy run of class characters that starts at i. */
  function RunEnd(s: string, i: nat): (k: nat)
    requires i <= |s|
    ensures i <= k <= |s|
    ensures forall j :: i <= j < k ==> InClass(s[j])
    ensures k < |s| ==> !InClass(s[k])
    decreases |s| - i
  {
    if i == |s| || !InClass(s[i]) then i else RunEnd(s, i + 1)
  }

  /** `re.search(r"([\d.]+)", s)`: the bounds of the match, if there is one. */
  function SearchRun(s: string): (r: Option<(nat, nat)>)
    ensures r.None? <==> NoneInClass(s)
    ensures r.Some? ==> IsFirstRun(s, r.value.0, r.value.1)
  {
    var i := SkipOthers(s, 0);
    if i == |s| then None
    else
      var j := RunEnd(s, i);
      Some((i, j))
  }

  /** The index of the first '.' at or after i, or |s|. */
  function FindDot(s: string, i: nat): (k: nat)
    requires i <= |s|
    ensures i <= k <= |s|
    ensures forall j :: i <= j < k ==> s[j] != '.'
    ensures k < |s| ==> s[k] == '.'
    decreases |s| - i
  {
    if i == |s| || s[i] == '.' then i else FindDot(s, i + 1)
  }

  /**
   Python's `float(tok)` for a token of digits and dots, the only tokens the search
   produces: an optional integer part, an optional '.' and fraction, at least one digit.
   Anything else (".", "1.2.3") raises ValueError.
   */
  function ParseDecimal(tok: string): (r: Result<Decimal, PyError>)
    requires AllInClass(tok)
    ensures r.Success? <==> CountDots(tok) <= 1 && HasDigit(tok)
    ensures r.Success? ==> r.value.places < |tok|
    ensures r.Failure? ==> r.error == ValueError
  {
    var k := FindDot(tok, 0);
    var whole := tok[..k];
    var frac := if k < |tok| then tok[k + 1..] else "";
    SplitAtDot(tok, k);
    if !AllDigits(frac) || (|whole| == 0 && |frac| == 0) then Failure(ValueError)
    else Success(DecimalOf(whole, frac))
  }

  /** The numeral "<whole>.<frac>": its digits read as one integer, scaled by the fraction length. */
  function DecimalOf(whole: string, frac: string): Decimal
    requires AllDigits(whole) && AllDigits(frac)
  {
    Decimal(DigitsValue(whole + frac), |frac|)
  }

  /** `extract_numeric(value)` applied to `str(value)`. */
  function ExtractNumeric(text: string): (r: Result<Decimal, PyError>)
    ensures NoneInClass(text) ==> r == Success(Zero)
    ensures r.Failure? ==> r.error == ValueError && !NoneInClass(text)
  {
    match SearchRun(text)
    case None => Success(Zero)
    case Some((i, j)) => ParseDecimal(text[i..j])
  }

  // ---------------------------------------------------------------------------
  // Decimal rendering, the partner of ParseDecimal

  function DigitChar(d: nat): (c: char)
    requires d < 10
    ensures IsDigit(c) && DigitValue(c) == d
  {
    ('0' as int + d) as char
  }

  /** The decimal rendering of n, as `str(n)` writes it. */
  function Digits(n: nat): (d: string)
    ensures |d| > 0 && AllDigits(d)
  {
    if n < 10 then [DigitChar(n)] else Digits(n / 10) + [DigitChar(n % 10)]
  }

  // ---------------------------------------------------------------------------
  // Lemmas

  lemma {:induction false} Pow10Add(a: nat, b: nat)
    ensures Pow10(a + b) == Pow10(a) * Pow10(b)
  {
    if a > 0 {
      Pow10Add(a - 1, b);
      assert Pow10(a + b) == 10 * Pow10(a - 1 + b);
    }
  }

  lemma {:induction false} CountDotsAppend(a: string, b: string)
    ensures CountDots(a + b) == CountDots(a) + CountDots(b)
    decreases |a|
  {
    if |a| == 0 {
      assert a + b == b;
    } else {
      assert (a + b)[1..] == a[1..] + b;
      CountDotsAppend(a[1..], b);
    }
  }

  lemma {:induction false} NoDotsCountZero(s: string)
    ensures CountDots(s) == 0 <==> forall i :: 0 <= i < |s| ==> s[i] != '.'
    decreases |s|
  {
    if |s| > 0 {
      NoDotsCountZero(s[1..]);
      assert forall i :: 1 <= i < |s| ==> s[i] == s[1..][i - 1];
    }
  }

  /** Splitting a class-only token at its first dot: the facts ParseDecimal needs. */
  lemma SplitAtDot(tok: string, k: nat)
    requires AllInClass(tok)
    requires k <= |tok|
    requires forall j :: 0 <= j < k ==> tok[j] != '.'
    requires k < |tok| ==> tok[k] == '.'
    ensures AllDigits(tok[..k])
    ensures var frac := if k < |tok| then tok[k + 1..] else "";
      && (CountDots(tok) <= 1 <==> AllDigits(frac))
      && (AllDigits(frac) ==> (HasDigit(tok) <==> |tok[..k]| > 0 || |frac| > 0))
  {
    var whole := tok[..k];
    var frac := if k < |tok| then tok[k + 1..] else "";
    NoDotsCountZero(whole);
    NoDotsCountZero(frac);
    if k < |tok| {
      assert tok == whole + "." + frac;
      CountDotsAppend(whole + ".", frac);
      CountDotsAppend(whole, ".");
      assert CountDots(".") == 1;
      assert AllDigits(frac) <==> forall i :: 0 <= i < |frac| ==> frac[i] != '.' by {
        assert forall i :: 0 <= i < |frac| ==> frac[i] == tok[k + 1 + i];
      }
      if HasDigit(tok) {
        var i :| 0 <= i < |tok| && IsDigit(tok[i]);
        assert i != k;
        if i > k { assert frac[i - k - 1] == tok[i]; }
      }
      if |whole| > 0 { assert IsDigit(tok[0]); }
      if |frac| > 0 && AllDigits(frac) { assert tok[k + 1] == frac[0]; }
    } else {
      assert tok == whole;
      if |whole| > 0 { assert IsDigit(tok[0]); }
    }
  }

  /** IsFirstRun unfolded to statements about single characters of s. */
  lemma RunFacts(s: string, i: nat, j: nat)
    requires IsFirstRun(s, i, j)
    ensures forall k :: 0 <= k < i ==> !InClass(s[k])
    ensures forall k :: i <= k < j ==> InClass(s[k])
  {
    forall k | 0 <= k < i ensures !InClass(s[k]) {
      assert s[..i][k] == s[k];
    }
    forall k | i <= k < j ensures InClass(s[k]) {
      assert s[i..j][k - i] == s[k];
    }
  }

  /** There is only one leftmost maximal run. */
  lemma FirstRunUnique(s: string, i: nat, j: nat, i': nat, j': nat)
    requires IsFirstRun(s, i, j) && IsFirstRun(s, i', j')
    ensures i == i' && j == j'
  {
    RunFacts(s, i, j);
    RunFacts(s, i', j');
    assert InClass(s[i]) && InClass(s[i']);
  }

  /** extract_numeric converts exactly the first maximal run of `[\d.]` characters. */
  lemma ExtractNumericReadsFirstRun(text: string, i: nat, j: nat)
    requires IsFirstRun(text, i, j)
    ensures ExtractNumeric(text) == ParseDecimal(text[i..j])
  {
    var r := SearchRun(text);
    assert r.Some? by {
      assert InClass(text[i]) by { assert text[i..j][0] == text[i]; }
    }
    FirstRunUnique(text, i, j, r.value.0, r.value.1);
  }

  /** Any prefix without digits or dots, a minus sign for one, is skipped: the result is never negated. */
  lemma ExtractNumericSkipsPrefix(prefix: string, text: string)
    requires NoneInClass(prefix)
    ensures ExtractNumeric(prefix + text) == ExtractNumeric(text)
  {
    var s := prefix + text;
    match SearchRun(text)
    case None =>
      assert NoneInClass(s) by {
        forall k | 0 <= k < |s| ensures !InClass(s[k]) {
          if k < |prefix| { assert s[k] == prefix[k]; } else { assert s[k] == text[k - |prefix|]; }
        }
      }
    case Some((i, j)) =>
      var i', j' := |prefix| + i, |prefix| + j;
      assert s[i'..j'] == text[i..j];
      assert s[..i'] == prefix + text[..i];
      assert NoneInClass(s[..i']) by {
        forall k | 0 <= k < i' ensures !InClass(s[..i'][k]) {
          if k < |prefix| { assert s[..i'][k] == prefix[k]; }
          else { assert s[..i'][k] == text[..i][k - |prefix|]; }
        }
      }
      assert j' < |s| ==> s[j'] == text[j];
      assert IsFirstRun(s, i', j');
      ExtractNumericReadsFirstRun(s, i', j');
  }

  lemma {:induction false} DigitsValueAppend(d: string, c: char)
    requires AllDigits(d) && IsDigit(c)
    ensures DigitsValue(d + [c]) == DigitsValue(d) * 10 + DigitValue(c)
  {
    assert (d + [c])[..|d + [c]| - 1] == d;
  }

  /** Reading back a rendered natural number gives the number. */
  lemma {:induction false} DigitsRoundTrip(n: nat)
    ensures DigitsValue(Digits(n)) == n
  {
    if n >= 10 {
      DigitsRoundTrip(n / 10);
      DigitsValueAppend(Digits(n / 10), DigitChar(n % 10));
    }
  }

  /** In "<digits>.<frac>" the first dot is the one after the digits. */
  lemma DotAfterDigits(w: string, frac: string)
    requires AllDigits(w) && AllDigits(frac)
    ensures AllInClass(w + "." + frac)
    ensures FindDot(w + "." + frac, 0) == |w|
  {
    var tok := w + "." + frac;
    forall i | 0 <= i < |tok| ensures InClass(tok[i]) {
      if i < |w| { assert tok[i] == w[i]; }
      else if i > |w| { assert tok[i] == frac[i - |w| - 1]; }
    }
    var k := FindDot(tok, 0);
    assert tok[|w|] == '.';
    if k < |w| {
      assert false;
    }
  }

  lemma ShiftByTen(x: int, p: int, y: int, d: int)
    ensures (x * p + y) * 10 + d == x * (p * 10) + (y * 10 + d)
  {
  }

  /** Reading the digits of a + b is reading a, shifting by |b| places, and adding b. */
  lemma {:induction false} DigitsValueConcat(a: string, b: string)
    requires AllDigits(a) && AllDigits(b)
    ensures DigitsValue(a + b) == DigitsValue(a) * Pow10(|b|) + DigitsValue(b)
    decreases |b|
  {
    if |b| == 0 {
      assert a + b == a;
    } else {
      var b' := b[..|b| - 1];
      var c := b[|b| - 1];
      assert a + b == (a + b') + [c];
      assert b == b' + [c];
      DigitsValueAppend(a + b', c);
      DigitsValueAppend(b', c);
      DigitsValueConcat(a, b');
      var x, p, y, d := DigitsValue(a), Pow10(|b'|), DigitsValue(b'), DigitValue(c);
      assert Pow10(|b|) == p * 10;
      ShiftByTen(x, p, y, d);
    }
  }

  /** float() of "<w>.<frac>" for digit strings w (non-empty) and frac. */
  lemma ParseWholeDotFrac(w: string, frac: string)
    requires AllDigits(w) && AllDigits(frac) && |w| + |frac| > 0
    ensures AllInClass(w + "." + frac)
    ensures ParseDecimal(w + "." + frac) == Success(DecimalOf(w, frac))
  {
    var tok := w + "." + frac;
    DotAfterDigits(w, frac);
    var k := FindDot(tok, 0);
    assert tok[..k] == w;
    assert k < |tok| && tok[k + 1..] == frac;
  }

  /** float() of a rendered "<n>.<frac>" is n shifted by the fraction's length plus the fraction. */
  lemma ParseRendered(n: nat, frac: string)
    requires AllDigits(frac)
    ensures AllInClass(Digits(n) + "." + frac)
    ensures ParseDecimal(Digits(n) + "." + frac)
         == Success(Decimal(n * Pow10(|frac|) + DigitsValue(frac), |frac|))
  {
    DigitsRoundTrip(n);
    ParseDigitsDotFrac(Digits(n), n, frac);
  }

  /** float() of "<w>.<frac>" where w reads as n. */
  lemma ParseDigitsDotFrac(w: string, n: nat, frac: string)
    requires AllDigits(w) && |w| > 0 && AllDigits(frac) && DigitsValue(w) == n
    ensures AllInClass(w + "." + frac)
    ensures ParseDecimal(w + "." + frac) == Success(Decimal(n * Pow10(|frac|) + DigitsValue(frac), |frac|))
  {
    ParseWholeDotFrac(w, frac);
    DigitsValueConcat(w, frac);
    assert DecimalOf(w, frac) == Decimal(n * Pow10(|frac|) + DigitsValue(frac), |frac|);
  }

  /**
   float() of "<w>.<f>" for digit strings w and f, either of which may be empty (".5",
   "5."): the whole part shifted by the fraction's length, plus the fraction.
   */
  lemma ParseDecimalValue(w: string, f: string)
    requires AllDigits(w) && AllDigits(f) && |w| + |f| > 0
    ensures AllInClass(w + "." + f)
    ensures ParseDecimal(w + "." + f) == Success(Decimal(DigitsValue(w) * Pow10(|f|) + DigitsValue(f), |f|))
  {
    ParseWholeDotFrac(w, f);
    DigitsValueConcat(w, f);
    var tok := w + "." + f;
    var d := DecimalOf(w, f);
    assert ParseDecimal(tok) == Success(d);
    assert d == Decimal(DigitsValue(w) * Pow10(|f|) + DigitsValue(f), |f|);
  }

  /** float() of a digit string with no dot, leading zeros included ("007"), is its value. */
  lemma ParseDecimalWhole(w: string)
    requires AllDigits(w) && |w| > 0
    ensures AllInClass(w)
    ensures ParseDecimal(w) == Success(Decimal(DigitsValue(w), 0))
  {
    assert FindDot(w, 0) == |w|;
    assert w[..|w|] == w;
    assert w + "" == w;
  }

  /** float() of a rendered whole number is that number. */
  lemma ParseRenderedWhole(n: nat)
    ensures ParseDecimal(Digits(n)) == Success(Decimal(n, 0))
  {
    DigitsRoundTrip(n);
    ParseDecimalWhole(Digits(n));
  }

  /** A rendered quantity with a unit, as in "34.36 GB", extracts to its value. */
  lemma ExtractRendered(n: nat, frac: string, unit: string)
    requires AllDigits(frac)
    requires unit == [] || !InClass(unit[0])
    ensures ExtractNumeric(Digits(n) + "." + frac + unit)
         == Success(Decimal(n * Pow10(|frac|) + DigitsValue(frac), |frac|))
  {
    var tok := Digits(n) + "." + frac;
    var s := tok + unit;
    ParseRendered(n, frac);
    assert s[0..|tok|] == tok;
    assert s[..0] == [];
    assert |tok| < |s| ==> s[|tok|] == unit[0];
    assert IsFirstRun(s, 0, |tok|);
    ExtractNumericReadsFirstRun(s, 0, |tok|);
  }

  /**
   A quantity "<w>.<f>" followed by a unit that does not start with a digit or a dot
   extracts to the whole part shifted by the fraction's length, plus the fraction.
   */
  lemma ExtractDecimal(w: string, f: string, unit: string)
    requires AllDigits(w) && AllDigits(f) && |w| + |f| > 0
    requires unit == [] || !InClass(unit[0])
    ensures ExtractNumeric(w + "." + f + unit)
         == Success(Decimal(DigitsValue(w) * Pow10(|f|) + DigitsValue(f), |f|))
  {
    var tok := w + "." + f;
    var s := tok + unit;
    ParseDecimalValue(w, f);
    assert s[0..|tok|] == tok;
    assert s[..0] == [];
    assert |tok| < |s| ==> s[|tok|] == unit[0];
    assert IsFirstRun(s, 0, |tok|);
    ExtractNumericReadsFirstRun(s, 0, |tok|);
  }

  /** A whole quantity followed by such a unit extracts to its digits' value. */
  lemma ExtractWhole(w: string, unit: string)
    requires AllDigits(w) && |w| > 0
    requires unit == [] || !InClass(unit[0])
    ensures ExtractNumeric(w + unit) == Success(Decimal(DigitsValue(w), 0))
  {
    var s := w + unit;
    ParseDecimalWhole(w);
    assert s[0..|w|] == w;
    assert s[..0] == [];
    assert |w| < |s| ==> s[|w|] == unit[0];
    assert IsFirstRun(s, 0, |w|);
    ExtractNumericReadsFirstRun(s, 0, |w|);
  }

  /** "34.36 GB", as rendered for the RAM field, reads as 34.36. */
  lemma ExtractNumericRamExample()
    ensures ExtractNumeric("34.36 GB") == Success(Decimal(3436, 2))
  {
    assert DigitsValue("34") == 34 by { assert "34"[..1] == "3"; assert "3"[..0] == ""; }
    assert DigitsValue("36") == 36 by { assert "36"[..1] == "3"; assert "3"[..0] == ""; }
    assert Pow10(2) == 100;
    assert "34" + "." + "36" + " GB" == "34.36 GB";
    ExtractDecimal("34", "36", " GB");
  }

  /** "0.00 Mbps" reads as zero through float(), not through the default. */
  lemma ExtractNumericZeroExample()
    ensures ExtractNumeric("0.00 Mbps") == Success(Decimal(0, 2))
    ensures SearchRun("0.00 Mbps").Some?
  {
    assert DigitsValue("0") == 0 by { assert "0"[..0] == ""; }
    assert DigitsValue("00") == 0 by { assert "00"[..1] == "0"; }
    assert Pow10(2) == 100;
    assert "0" + "." + "00" + " Mbps" == "0.00 Mbps";
    ExtractDecimal("0", "00", " Mbps");
    assert InClass("0.00 Mbps"[0]);
  }

  /** A leading minus sign is not part of the run, so "-12 dBm" reads as 12. */
  lemma ExtractNumericSignExample()
    ensures ExtractNumeric("-12 dBm") == Success(Decimal(12, 0))
  {
    var t := "12 dBm";
    assert t[..0] == [] && t[0..2] == "12";
    assert IsFirstRun(t, 0, 2);
    ExtractNumericReadsFirstRun(t, 0, 2);
    assert Digits(12) == "12";
    ParseRenderedWhole(12);
    ExtractNumericSkipsPrefix("-", t);
    assert "-" + t == "-12 dBm";
  }

  /** A run that is not a number makes float() raise instead of defaulting to 0.0. */
  lemma ExtractNumericMalformedExample()
    ensures ExtractNumeric(". GB") == Failure(ValueError)
    ensures ExtractNumeric("1.2.3") == Failure(ValueError)
  {
    var a := ". GB";
    assert a[..0] == [] && a[0..1] == ".";
    assert IsFirstRun(a, 0, 1);
    ExtractNumericReadsFirstRun(a, 0, 1);
    assert !HasDigit(".");
    var b := "1.2.3";
    assert b[..0] == [] && b[0..5] == b;
    assert IsFirstRun(b, 0, 5);
    ExtractNumericReadsFirstRun(b, 0, 5);
    assert CountDots(b) == 2;
  }

  /** A run may start with its dot: ".5 GB" reads as 0.5. */
  lemma ExtractNumericLeadingDotExample()
    ensures ExtractNumeric(".5 GB") == Success(Decimal(5, 1))
  {
    assert DigitsValue("5") == 5 by { assert "5"[..0] == ""; }
    assert Pow10(1) == 10;
    assert "" + "." + "5" + " GB" == ".5 GB";
    ExtractDecimal("", "5", " GB");
  }

  /** Leading zeros are read, not rejected: "007 Mbps" reads as 7. */
  lemma ExtractNumericLeadingZerosExample()
    ensures ExtractNumeric("007 Mbps") == Success(Decimal(7, 0))
  {
    assert DigitsValue("007") == 7 by {
      assert "007"[..2] == "00" && "00"[..1] == "0" && "0"[..0] == "";
    }
    assert "007" + " Mbps" == "007 Mbps";
    ExtractWhole("007", " Mbps");
  }
}

=== FILE: onboarding.dfy ===
/**
 The onboarding stages of the main block, run in order and failing fast:
 fetch_cluster_id, fetch_setup_key, install_netbird, register_peer, register_machine
 (after the command-line arguments are unpacked). Every remote call or subprocess is
 an input value; every failure ends the process with status 1 before the next stage.
 */
module Onboarding {
  import opened Wrappers
  import opened PyJson
  import opened Numeric
  import opened DecimalValue
  import opened StatusParse
  import opened Node

  /** An HTTP exchange: a status code and a body that may not parse as JSON, or a transport error. */
  datatype Response = Reply(status: int, body: Option<Json>) | NoReply

  /** A finished shell command: its exit status and standard output. */
  datatype Command = Command(code: int, stdout: string)

  /** The fields of get_system_info()["machineConfig"] that register_machine reads, as str() renders them. */
  datatype MachineProfile = MachineProfile(cpu: string, totalRam: string, bandwidth: string, connectionSpeed: string)

  /**
   Everything the outside world supplies during onboarding. `profile` is None when
   get_system_info caught an exception and returned an empty machineConfig.
   */
  datatype Inputs = Inputs(
    argv: seq<string>,
    eligibility: Response,
    setupKeyReply: Response,
    netbirdUp: Command,
    netbirdStatus: Command,
    peerReply: Response,
    profile: Option<MachineProfile>,
    machineReply: Response)

  /** Why a stage stopped the process: a sys.exit(1) branch, or an exception nobody catches. */
  datatype Failure =
    | HttpError(status: int)
    | MissingField(field: string)
    | CommandFailed(code: int)
    | NoNetbirdIp
    | Raised(error: PyError)

  /** sys.exit(1) and an uncaught exception both end the process with status 1. */
  const FailureExitCode := 1

  /** The stages in the order the main block calls them. */
  const StageCount := 6

  datatype StageResult =
    | Advance(s: Session, effects: seq<Effect>)
    | Halt(s: Session, effects: seq<Effect>, why: Failure)

  // ---------------------------------------------------------------------------
  // Independent descriptions of the replies each stage accepts

  /** A 200 reply whose JSON body is an object. */
  predicate JsonObjectReply(resp: Response) {
    resp.Reply? && resp.status == 200 && resp.body.Some? && resp.body.value.JObj?
  }

  /** A 200 reply whose JSON object has the given key. */
  predicate HasField(resp: Response, key: string) {
    JsonObjectReply(resp) && key in resp.body.value.fields
  }

  function Field(resp: Response, key: string): Json
    requires HasField(resp, key)
  {
    resp.body.value.fields[key]
  }

  /** A 200 reply that lists a first eligible cluster carrying an `_id`. */
  predicate ListsCluster(resp: Response) {
    && HasField(resp, "eligibleClusters")
    && Field(resp, "eligibleClusters").JArr?
    && |Field(resp, "eligibleClusters").items| > 0
    && Field(resp, "eligibleClusters").items[0].JObj?
    && "_id" in Field(resp, "eligibleClusters").items[0].fields
  }

  /** `eligibleClusters[0]._id` of such a reply. */
  function ListedCluster(resp: Response): Json
    requires ListsCluster(resp)
  {
    Field(resp, "eligibleClusters").items[0].fields["_id"]
  }

  // ---------------------------------------------------------------------------
  // The stages

  /** The part of every lookup before the field access: status check, then `response.json()`. */
  function ReadJson(resp: Response): Result<Json, Failure> {
    match resp
    case NoReply => Failure(Raised(ConnectionError))
    case Reply(status, body) =>
      if status != 200 then Failure(HttpError(status))
      else if body.None? then Failure(Raised(JsonDecodeError))
      else Success(body.value)
  }

  /** `device_id, api_token = sys.argv[1:3]`. */
  function ParseArguments(s: Session, argv: seq<string>): (r: StageResult)
    ensures r.effects == []
    ensures r.Advance? <==> |argv| >= 3
    ensures r.Advance? ==> r.s == s.(deviceId := Some(argv[1]), apiToken := Some(argv[2]))
    ensures r.Halt? ==> r.s == s && r.why == Raised(ValueError)
  {
    var args := if |argv| <= 1 then [] else argv[1..if |argv| < 3 then |argv| else 3];
    if |args| != 2 then Halt(s, [], Raised(ValueError))
    else Advance(s.(deviceId := Some(args[0]), apiToken := Some(args[1])), [])
  }

  /** `response_data.get("eligibleClusters", [{}])[0].get("_id")`. */
  function SelectCluster(data: Json): Result<Json, PyError> {
    match Get(data, "eligibleClusters", JArr([JObj(map[])]))
    case Failure(e) => Failure(e)
    case Success(clusters) =>
      match First(clusters)
      case Failure(e) => Failure(e)
      case Success(entry) => Get(entry, "_id", JNull)
  }

  /** fetch_cluster_id(): the first eligible cluster's `_id`, or exit. */
  function FetchCluster(s: Session, resp: Response): (r: StageResult)
    ensures r.effects == [PostEligibility(s.deviceId)]
    ensures r.Advance? <==> ListsCluster(resp) && Truthy(ListedCluster(resp))
    ensures r.Advance? ==> r.s == s.(clusterId := ListedCluster(resp))
    ensures r.Halt? ==> r.s == s || r.s == s.(clusterId := r.s.clusterId)
    ensures (HasField(resp, "eligibleClusters") && Field(resp, "eligibleClusters") == JArr([]))
      ==> r.Halt? && r.why == Raised(IndexError)
    ensures (JsonObjectReply(resp) && !HasField(resp, "eligibleClusters"))
      ==> r.Halt? && r.why == MissingField("_id")
    ensures resp.Reply? && resp.status != 200 ==> r.Halt? && r.why == HttpError(resp.status)
  {
    var eff := [PostEligibility(s.deviceId)];
    match ReadJson(resp)
    case Failure(f) => Halt(s, eff, f)
    case Success(data) =>
      match SelectCluster(data)
      case Failure(e) => Halt(s, eff, Raised(e))
      case Success(cid) =>
        var s' := s.(clusterId := cid);
        if !Truthy(cid) then Halt(s', eff, MissingField("_id")) else Advance(s', eff)
  }

  /** fetch_setup_key(): the `setupKey` field, or exit. The key is main's local, set only on return. */
  function FetchSetupKey(s: Session, resp: Response): (r: StageResult)
    ensures r.effects == [GetSetupKey(s.deviceId, s.clusterId)]
    ensures r.Advance? <==> HasField(resp, "setupKey") && Truthy(Field(resp, "setupKey"))
    ensures r.Advance? ==> r.s == s.(setupKey := Field(resp, "setupKey"))
    ensures r.Halt? ==> r.s == s
    ensures resp.Reply? && resp.status != 200 ==> r.Halt? && r.why == HttpError(resp.status)
  {
    var eff := [GetSetupKey(s.deviceId, s.clusterId)];
    match ReadJson(resp)
    case Failure(f) => Halt(s, eff, f)
    case Success(data) =>
      match Get(data, "setupKey", JNull)
      case Failure(e) => Halt(s, eff, Raised(e))
      case Success(key) =>
        if !Truthy(key) then Halt(s, eff, MissingField("setupKey")) else Advance(s.(setupKey := key), eff)
  }

  /** install_netbird(): `netbird up`, then `netbird status`, then the IP extraction. */
  function InstallNetbird(s: Session, up: Command, status: Command): (r: StageResult)
    ensures r.effects == [RunNetbirdUp(s.setupKey)] + (if up.code == 0 then [RunNetbirdStatus] else [])
    ensures r.Advance? <==> up.code == 0 && status.code == 0 && HasIpLine(status.stdout)
    ensures r.Advance? ==> r.s == s.(netbirdIp := ExtractIp(status.stdout)) && Present(r.s.netbirdIp)
    ensures r.Halt? ==> r.s == s
    ensures up.code != 0 ==> r.Halt? && r.why == CommandFailed(up.code)
  {
    ExtractIpSpec(status.stdout);
    ExtractedIpLength(status.stdout);
    var eff := [RunNetbirdUp(s.setupKey)];
    if up.code != 0 then Halt(s, eff, CommandFailed(up.code))
    else
      var eff := eff + [RunNetbirdStatus];
      if status.code != 0 then Halt(s, eff, CommandFailed(status.code))
      else
        match ExtractIp(status.stdout)
        case None => Halt(s, eff, NoNetbirdIp)
        case Some(ip) => Advance(s.(netbirdIp := Some(ip)), eff)
  }

  /** register_peer(): POST clusterId and netbirdIP, keep `peerId`, or exit. */
  function RegisterPeer(s: Session, resp: Response): (r: StageResult)
    ensures r.effects == [PostPeer(s.deviceId, s.clusterId, s.netbirdIp)]
    ensures r.Advance? <==> HasField(resp, "peerId") && Truthy(Field(resp, "peerId"))
    ensures r.Advance? ==> r.s == s.(peerId := Field(resp, "peerId"))
    ensures r.Halt? ==> r.s == s || r.s == s.(peerId := r.s.peerId)
    ensures resp.Reply? && resp.status != 200 ==> r.Halt? && r.why == HttpError(resp.status)
  {
    var eff := [PostPeer(s.deviceId, s.clusterId, s.netbirdIp)];
    match ReadJson(resp)
    case Failure(f) => Halt(s, eff, f)
    case Success(data) =>
      match Get(data, "peerId", JNull)
      case Failure(e) => Halt(s, eff, Raised(e))
      case Success(pid) =>
        var s' := s.(peerId := pid);
        if !Truthy(pid) then Halt(s', eff, MissingField("peerId")) else Advance(s', eff)
  }

  /** The payload of register_machine is built from these session fields and readings. */
  predicate MachinePayload(s: Session, p: MachineProfile, info: MachineInfo) {
    && info.machineId == s.peerId
    && info.ip == s.netbirdIp
    && info.appId == s.deviceId
    && info.system == p.cpu
    && ExtractNumeric(p.bandwidth).Success? && info.bandwidth == Value(ExtractNumeric(p.bandwidth).value)
    && ExtractNumeric(p.totalRam).Success? && info.ram == Value(ExtractNumeric(p.totalRam).value)
    && ExtractNumeric(p.connectionSpeed).Success? && info.connectionSpeed == Value(ExtractNumeric(p.connectionSpeed).value)
  }

  /** All three numeric readings of the profile convert without raising. */
  predicate ReadingsConvert(p: MachineProfile) {
    && ExtractNumeric(p.bandwidth).Success?
    && ExtractNumeric(p.totalRam).Success?
    && ExtractNumeric(p.connectionSpeed).Success?
  }

  /** register_machine(): build the machineInfo payload and POST it; only the status is checked. */
  function RegisterMachine(s: Session, profile: Option<MachineProfile>, resp: Response): (r: StageResult)
    ensures r.s == s
    ensures |r.effects| <= 1
    ensures |r.effects| == 1 <==> profile.Some? && ReadingsConvert(profile.value)
    ensures |r.effects| == 1 ==>
      r.effects[0].PostMachine? && r.effects[0].clusterId == s.clusterId
      && MachinePayload(s, profile.value, r.effects[0].info)
    ensures r.Advance? <==> profile.Some? && ReadingsConvert(profile.value) && resp.Reply? && resp.status == 200
    ensures profile.None? ==> r.Halt? && r.why == Raised(KeyError)
  {
    match profile
    case None => Halt(s, [], Raised(KeyError))
    case Some(p) =>
      var bandwidth := ExtractNumeric(p.bandwidth);
      if bandwidth.Failure? then Halt(s, [], Raised(bandwidth.error)) else
      var ram := ExtractNumeric(p.totalRam);
      if ram.Failure? then Halt(s, [], Raised(ram.error)) else
      var speed := ExtractNumeric(p.connectionSpeed);
      if speed.Failure? then Halt(s, [], Raised(speed.error)) else
      var info := MachineInfo(s.peerId, Value(bandwidth.value), Value(ram.value), Value(speed.value), p.cpu, s.netbirdIp, s.deviceId);
      var eff := [PostMachine(s.clusterId, info)];
      match resp
      case NoReply => Halt(s, eff, Raised(ConnectionError))
      case Reply(status, _) => if status != 200 then Halt(s, eff, HttpError(status)) else Advance(s, eff)
  }

  /** The k-th stage of the main block (0-based). */
  function RunStage(inp: Inputs, k: nat, s: Session): StageResult
    requires k < StageCount
  {
    if k == 0 then ParseArguments(s, inp.argv)
    else if k == 1 then FetchCluster(s, inp.eligibility)
    else if k == 2 then FetchSetupKey(s, inp.setupKeyReply)
    else if k == 3 then InstallNetbird(s, inp.netbirdUp, inp.netbirdStatus)
    else if k == 4 then RegisterPeer(s, inp.peerReply)
    else RegisterMachine(s, inp.profile, inp.machineReply)
  }

  /** The stage (1-based, as counted by RunStages) whose call produced an effect. */
  function StageOf(e: Effect): nat {
    match e
    case PostEligibility(_) => 2
    case GetSetupKey(_, _) => 3
    case RunNetbirdUp(_) => 4
    case RunNetbirdStatus => 4
    case PostPeer(_, _, _) => 5
    case PostMachine(_, _) => 6
    case _ => 7
  }

  /**
   After k completed stages: every identity of those stages is set and truthy, and
   none of the later ones has been assigned yet.
   */
  predicate Progressed(s: Session, k: nat) {
    && (k >= 1 ==> s.deviceId.Some? && s.apiToken.Some?)
    && (k >= 2 <==> s.clusterId != JNull) && (k >= 2 ==> Truthy(s.clusterId))
    && (k >= 3 <==> s.setupKey != JNull) && (k >= 3 ==> Truthy(s.setupKey))
    && (k >= 4 <==> s.netbirdIp.Some?) && (k >= 4 ==> Present(s.netbirdIp))
    && (k >= 5 <==> s.peerId != JNull) && (k >= 5 ==> Truthy(s.peerId))
  }

  /** Each stage, entered after the stages before it, extends the identity chain by its own link. */
  lemma StageExtendsChain(inp: Inputs, k: nat, s: Session)
    requires k < StageCount && Progressed(s, k)
    ensures RunStage(inp, k, s).Advance? ==> Progressed(RunStage(inp, k, s).s, k + 1)
    ensures Chain(RunStage(inp, k, s).s)
    ensures forall e :: e in RunStage(inp, k, s).effects ==> StageOf(e) == k + 1
  {
  }

  /** Appending effects of a later stage keeps a trace in stage order. */
  lemma AppendInStageOrder(tr: seq<Effect>, eff: seq<Effect>, k: nat)
    requires forall i, j :: 0 <= i < j < |tr| ==> StageOf(tr[i]) <= StageOf(tr[j])
    requires forall i :: 0 <= i < |tr| ==> StageOf(tr[i]) <= k
    requires forall e :: e in eff ==> StageOf(e) == k + 1
    ensures forall i, j :: 0 <= i < j < |tr + eff| ==> StageOf((tr + eff)[i]) <= StageOf((tr + eff)[j])
    ensures forall i :: 0 <= i < |tr + eff| ==> StageOf((tr + eff)[i]) <= k + 1
  {
    forall i, j | 0 <= i < j < |tr + eff|
      ensures StageOf((tr + eff)[i]) <= StageOf((tr + eff)[j])
    {
      if j >= |tr| {
        assert (tr + eff)[j] in eff;
        if i >= |tr| {
          assert (tr + eff)[i] in eff;
        }
      }
    }
    forall i | 0 <= i < |tr + eff|
      ensures StageOf((tr + eff)[i]) <= k + 1
    {
      if i >= |tr| {
        assert (tr + eff)[i] in eff;
      }
    }
  }

  /** Where onboarding stands after some number of stages. */
  datatype Progress =
    | Running(s: Session, trace: seq<Effect>)
    | Halted(stage: nat, s: Session, trace: seq<Effect>, why: Failure)

  /**
   The first n stages, stopping at the first failure. The identity chain holds at every
   point, and a halted run stopped at a stage it attempted.
   */
  function RunStages(inp: Inputs, n: nat): (p: Progress)
    requires n <= StageCount
    ensures Chain(p.s)
    ensures p.Running? ==> Progressed(p.s, n)
    ensures p.Halted? ==> 1 <= p.stage <= n
  {
    if n == 0 then Running(Initial, [])
    else
      match RunStages(inp, n - 1)
      case Halted(k, s, tr, why) => Halted(k, s, tr, why)
      case Running(s, tr) =>
        StageExtendsChain(inp, n - 1, s);
        match RunStage(inp, n - 1, s)
        case Advance(s', eff) => Running(s', tr + eff)
        case Halt(s', eff, why) => Halted(n, s', tr + eff, why)
  }

  /**
   Every effect belongs to a stage that was reached, no stage after a halting one has
   any, and the effects appear in stage order.
   */
  lemma {:induction false} StagesInOrder(inp: Inputs, n: nat)
    requires n <= StageCount
    ensures var p := RunStages(inp, n);
      && (p.Running? ==> forall i :: 0 <= i < |p.trace| ==> StageOf(p.trace[i]) <= n)
      && (p.Halted? ==> forall i :: 0 <= i < |p.trace| ==> StageOf(p.trace[i]) <= p.stage)
      && (forall i, j :: 0 <= i < j < |p.trace| ==> StageOf(p.trace[i]) <= StageOf(p.trace[j]))
  {
    if n > 0 {
      StagesInOrder(inp, n - 1);
      var p := RunStages(inp, n - 1);
      if p.Running? {
        var r := RunStage(inp, n - 1, p.s);
        StageExtendsChain(inp, n - 1, p.s);
        AppendInStageOrder(p.trace, r.effects, n - 1);
        UnfoldRunning(inp, n);
      } else {
        UnfoldHalted(inp, n);
      }
    }
  }

  /** One more stage after a halt changes nothing. */
  lemma UnfoldHalted(inp: Inputs, n: nat)
    requires 1 <= n <= StageCount && RunStages(inp, n - 1).Halted?
    ensures RunStages(inp, n) == RunStages(inp, n - 1)
  {
  }

  /** One more stage after completed ones runs that stage and appends its effects. */
  lemma UnfoldRunning(inp: Inputs, n: nat)
    requires 1 <= n <= StageCount && RunStages(inp, n - 1).Running?
    ensures var p := RunStages(inp, n - 1); var r := RunStage(inp, n - 1, p.s);
      && RunStages(inp, n).trace == p.trace + r.effects
      && (r.Advance? ==> RunStages(inp, n) == Running(r.s, p.trace + r.effects))
      && (r.Halt? ==> RunStages(inp, n) == Halted(n, r.s, p.trace + r.effects, r.why))
  {
  }

  /** The whole onboarding sequence of the main block. */
  function Onboard(inp: Inputs): Progress {
    RunStages(inp, StageCount)
  }

  // ---------------------------------------------------------------------------
  // Properties of the whole sequence

  /** What the outside world must supply for stage k to let the next one run. */
  ghost predicate Accepts(inp: Inputs, k: nat) {
    if k == 0 then |inp.argv| >= 3
    else if k == 1 then ListsCluster(inp.eligibility) && Truthy(ListedCluster(inp.eligibility))
    else if k == 2 then HasField(inp.setupKeyReply, "setupKey") && Truthy(Field(inp.setupKeyReply, "setupKey"))
    else if k == 3 then inp.netbirdUp.code == 0 && inp.netbirdStatus.code == 0 && HasIpLine(inp.netbirdStatus.stdout)
    else if k == 4 then HasField(inp.peerReply, "peerId") && Truthy(Field(inp.peerReply, "peerId"))
    else inp.profile.Some? && ReadingsConvert(inp.profile.value)
         && inp.machineReply.Reply? && inp.machineReply.status == 200
  }

  /** The first n stages all complete exactly when each of them is given what it accepts. */
  lemma {:induction false} RunningIffAccepted(inp: Inputs, n: nat)
    requires n <= StageCount
    ensures RunStages(inp, n).Running? <==> forall k :: 0 <= k < n ==> Accepts(inp, k)
  {
    if n > 0 {
      RunningIffAccepted(inp, n - 1);
      var p := RunStages(inp, n - 1);
      if p.Running? {
        var r := RunStage(inp, n - 1, p.s);
        assert r.Advance? <==> Accepts(inp, n - 1);
      }
    }
  }

  /** Fail-fast: once a stage halts, running more stages changes nothing. */
  lemma {:induction false} HaltIsFinal(inp: Inputs, n: nat, m: nat)
    requires n <= m <= StageCount
    requires RunStages(inp, n).Halted?
    ensures RunStages(inp, m) == RunStages(inp, n)
  {
    if m > n {
      HaltIsFinal(inp, n, m - 1);
      UnfoldHalted(inp, m);
    }
  }

  /** Onboarding reaches the liveness loop exactly when every stage accepts its input. */
  lemma OnboardSucceedsIff(inp: Inputs)
    ensures Onboard(inp).Running? <==> forall k :: 0 <= k < StageCount ==> Accepts(inp, k)
  {
    RunningIffAccepted(inp, StageCount);
  }

  /**
   A completed onboarding carries the identities each stage obtained, and its calls were
   made in order with the values the previous stages produced.
   */
  lemma OnboardedSession(inp: Inputs)
    requires Onboard(inp).Running?
    ensures var p := Onboard(inp);
      && |inp.argv| >= 3
      && p.s.deviceId == Some(inp.argv[1])
      && p.s.apiToken == Some(inp.argv[2])
      && ListsCluster(inp.eligibility) && p.s.clusterId == ListedCluster(inp.eligibility)
      && HasField(inp.setupKeyReply, "setupKey") && p.s.setupKey == Field(inp.setupKeyReply, "setupKey")
      && p.s.netbirdIp == ExtractIp(inp.netbirdStatus.stdout) && Present(p.s.netbirdIp)
      && HasField(inp.peerReply, "peerId") && p.s.peerId == Field(inp.peerReply, "peerId")
  {
    RunningStep(inp, 5);
    RunningStep(inp, 4);
    RunningStep(inp, 3);
    RunningStep(inp, 2);
    RunningStep(inp, 1);
    RunningStep(inp, 0);
  }

  /** The calls a completed onboarding made, in order, with the values the stages before them produced. */
  lemma OnboardedTrace(inp: Inputs)
    requires Onboard(inp).Running?
    ensures var p := Onboard(inp);
      && inp.profile.Some?
      && |p.trace| == 6
      && p.trace[..5] == [
           PostEligibility(p.s.deviceId),
           GetSetupKey(p.s.deviceId, p.s.clusterId),
           RunNetbirdUp(p.s.setupKey),
           RunNetbirdStatus,
           PostPeer(p.s.deviceId, p.s.clusterId, p.s.netbirdIp)]
      && p.trace[5].PostMachine? && p.trace[5].clusterId == p.s.clusterId
      && MachinePayload(p.s, inp.profile.value, p.trace[5].info)
  {
    RunningStep(inp, 5);
    TraceAfterPeer(inp);
    var p5 := RunStages(inp, 5);
    var r := RegisterMachine(p5.s, inp.profile, inp.machineReply);
    assert RunStage(inp, 5, p5.s) == r;
    assert Onboard(inp).trace == p5.trace + r.effects;
  }

  /** The calls made by the first five stages when they all complete. */
  lemma TraceAfterPeer(inp: Inputs)
    requires RunStages(inp, 5).Running?
    ensures var p := RunStages(inp, 5);
      p.trace == [
        PostEligibility(p.s.deviceId),
        GetSetupKey(p.s.deviceId, p.s.clusterId),
        RunNetbirdUp(p.s.setupKey),
        RunNetbirdStatus,
        PostPeer(p.s.deviceId, p.s.clusterId, p.s.netbirdIp)]
  {
    RunningStep(inp, 4);
    TraceAfterInstall(inp);
    var p4 := RunStages(inp, 4);
    assert RunStage(inp, 4, p4.s) == RegisterPeer(p4.s, inp.peerReply);
  }

  lemma TraceAfterInstall(inp: Inputs)
    requires RunStages(inp, 4).Running?
    ensures var p := RunStages(inp, 4);
      p.trace == [
        PostEligibility(p.s.deviceId),
        GetSetupKey(p.s.deviceId, p.s.clusterId),
        RunNetbirdUp(p.s.setupKey),
        RunNetbirdStatus]
  {
    RunningStep(inp, 3);
    TraceAfterSetupKey(inp);
    var p3 := RunStages(inp, 3);
    assert RunStage(inp, 3, p3.s) == InstallNetbird(p3.s, inp.netbirdUp, inp.netbirdStatus);
  }

  lemma TraceAfterSetupKey(inp: Inputs)
    requires RunStages(inp, 3).Running?
    ensures var p := RunStages(inp, 3);
      p.trace == [PostEligibility(p.s.deviceId), GetSetupKey(p.s.deviceId, p.s.clusterId)]
  {
    RunningStep(inp, 2);
    RunningStep(inp, 1);
    RunningStep(inp, 0);
  }

  /** A completed stage sequence is the completed shorter one followed by an accepting stage. */
  lemma RunningStep(inp: Inputs, k: nat)
    requires k < StageCount && RunStages(inp, k + 1).Running?
    ensures RunStages(inp, k).Running?
    ensures var p := RunStages(inp, k); var r := RunStage(inp, k, p.s);
      r.Advance? && RunStages(inp, k + 1) == Running(r.s, p.trace + r.effects)
  {
  }
}

=== FILE: process.dfy ===
/**
 The main block as a whole: onboarding, then run_websocket, with SIGTERM/SIGINT able
 to arrive at any point.
 */
module Process {
  import opened Wrappers
  import opened PyJson
  import opened StatusParse
  import opened Node
  import opened Shutdown
  import opened Onboarding
  import opened Liveness
  import opened Seqs

  /** How far the process got: still supervising, or exited with a status; and everything it did. */
  datatype Outcome = Outcome(p: Proc, trace: seq<Effect>)

  /** A trace with no peer-deletion request in it. */
  predicate DeletesNothing(trace: seq<Effect>) {
    forall i :: 0 <= i < |trace| ==> !trace[i].DeletePeerRequest?
  }

  lemma {:induction false} DeletesNothingCount(trace: seq<Effect>)
    requires DeletesNothing(trace)
    ensures Deletes(trace) == 0
    decreases |trace|
  {
    if |trace| > 0 {
      DeletesNothingCount(trace[..|trace| - 1]);
    }
  }

  /** Onboarding never deletes a peer and never opens the watch connection. */
  lemma {:induction false} OnboardingTraceShape(inp: Inputs, n: nat)
    requires n <= StageCount
    ensures DeletesNothing(RunStages(inp, n).trace)
    ensures forall i :: 0 <= i < |RunStages(inp, n).trace| ==> !RunStages(inp, n).trace[i].OpenWatch?
  {
    var p := RunStages(inp, n);
    StagesInOrder(inp, n);
    OnboardingEffectsOnly(p.trace, if p.Running? then n else p.stage);
  }

  /** Effects tagged with onboarding stages are neither deletions nor the watch connection. */
  lemma OnboardingEffectsOnly(trace: seq<Effect>, m: nat)
    requires m <= StageCount
    requires forall i :: 0 <= i < |trace| ==> StageOf(trace[i]) <= m
    ensures DeletesNothing(trace)
    ensures forall i :: 0 <= i < |trace| ==> !trace[i].OpenWatch?
  {
    forall i | 0 <= i < |trace|
      ensures !trace[i].DeletePeerRequest? && !trace[i].OpenWatch?
    {
      assert StageOf(trace[i]) <= StageCount;
    }
  }

  /** run_websocket() for the onboarded globals g, started at time `now` and fed `evs`. */
  function Supervise(g: Session, now: int, evs: seq<Event>): (o: Outcome)
    ensures |o.trace| > 0 && o.trace[0] == OpenWatch(g.deviceId, g.clusterId)
    ensures Deletes(o.trace) <= 1
    ensures o.p.Live? ==> Deletes(o.trace) == 0
    ensures o.p.Live? ==> Valid(o.p.sup) && o.p.sup.g == g
  {
    var st := Start(g, now);
    var r := Run(st.p, evs);
    AtMostOneDelete(st.p, evs);
    DeletesAppend(st.effects, r.effects);
    Outcome(r.p, st.effects + r.effects)
  }

  /**
   The process fed with events `evs` after onboarding, run_websocket starting at time
   `now`. A failed stage ends it with status 1 before any connection is opened.
   */
  function RunNode(inp: Inputs, now: int, evs: seq<Event>): (o: Outcome)
    ensures Onboard(inp).Halted? ==>
      o.p == Exited(FailureExitCode) && o.trace == Onboard(inp).trace
      && forall i :: 0 <= i < |o.trace| ==> !o.trace[i].OpenWatch?
    ensures Onboard(inp).Running? ==>
      o.p == Supervise(Onboard(inp).s, now, evs).p
      && o.trace == Onboard(inp).trace + Supervise(Onboard(inp).s, now, evs).trace
    ensures Deletes(o.trace) <= 1
    ensures o.p.Live? ==> Deletes(o.trace) == 0
  {
    OnboardingTraceShape(inp, StageCount);
    DeletesNothingCount(Onboard(inp).trace);
    match Onboard(inp)
    case Halted(_, _, tr, _) => Outcome(Exited(FailureExitCode), tr)
    case Running(s, tr) =>
      var o := Supervise(s, now, evs);
      DeletesAppend(tr, o.trace);
      Outcome(o.p, tr + o.trace)
  }

  /** A signal while supervising ends the process with status 0 after delete_peer. */
  lemma SuperviseSignal(g: Session, now: int, pre: seq<Event>)
    requires Supervise(g, now, pre).p.Live?
    ensures Supervise(g, now, pre + [Signal])
      == Outcome(Exited(SignalExitCode), Supervise(g, now, pre).trace + DeletePeer(g))
  {
    var st := Start(g, now);
    RunAppend(st.p, pre, [Signal]);
    var mid := Run(st.p, pre);
    RunOne(mid.p, Signal);
    Associate(st.effects, mid.effects, DeletePeer(g));
  }

  /** A closed connection ends the process with status 0 and no delete request. */
  lemma SuperviseClose(g: Session, now: int, pre: seq<Event>)
    requires Supervise(g, now, pre).p.Live?
    ensures Supervise(g, now, pre + [ConnClosed])
      == Outcome(Exited(CleanExitCode), Supervise(g, now, pre).trace)
  {
    var st := Start(g, now);
    RunAppend(st.p, pre, [ConnClosed]);
    var mid := Run(st.p, pre);
    RunOne(mid.p, ConnClosed);
    Associate(st.effects, mid.effects, []);
  }

  /**
   A silent server whose connection opens at the instant the clock starts: the fifth
   heartbeat, 40 seconds in, stops the node.
   */
  lemma SuperviseSilence(g: Session, now: int)
    ensures Supervise(g, now, [Opened] + QuietBeats(now, 5))
      == Outcome(Exited(TimeoutExitCode), [OpenWatch(g.deviceId, g.clusterId)] + Frames(5) + DeletePeer(g))
  {
    var st := Start(g, now);
    RunAppend(st.p, [Opened], QuietBeats(now, 5));
    var up := Step(st.p, Opened);
    RunOne(st.p, Opened);
    SilenceStopsAtFifthBeat(up.p.sup);
    assert [] + (Frames(5) + DeletePeer(g)) == Frames(5) + DeletePeer(g);
    Associate(st.effects, Frames(5), DeletePeer(g));
  }

  /**
   A silent server whose connection opens d seconds after the clock starts, with
   0 < d <= 10: the fourth heartbeat, d + 30 seconds in, stops the node.
   */
  lemma SuperviseSilenceWithLatency(g: Session, now: int, d: int)
    requires 0 < d <= HeartbeatInterval
    ensures Supervise(g, now, [Opened] + QuietBeats(now + d, 4))
      == Outcome(Exited(TimeoutExitCode), [OpenWatch(g.deviceId, g.clusterId)] + Frames(4) + DeletePeer(g))
  {
    SuperviseSilenceAfterDelay(g, now, d);
    assert FirstOverdueBeat(d) == 3;
  }

  /**
   The index of the first heartbeat iteration more than LivenessTimeout seconds after the
   clock starts, when on_open fires d seconds after it and iterations follow every
   HeartbeatInterval seconds.
   */
  function FirstOverdueBeat(d: nat): (i: nat)
    ensures d + HeartbeatInterval * i > LivenessTimeout
    ensures forall j: nat :: j < i ==> d + HeartbeatInterval * j <= LivenessTimeout
  {
    if d > LivenessTimeout then 0 else (LivenessTimeout - d) / HeartbeatInterval + 1
  }

  /**
   A silent server whose connection opens d seconds after the clock starts, for any
   d >= 0: the node sends one heartbeat per iteration up to the first one more than 30
   seconds after the start, which also deletes the peer and exits 1.
   */
  lemma SuperviseSilenceAfterDelay(g: Session, now: int, d: nat)
    ensures var i := FirstOverdueBeat(d);
      Supervise(g, now, [Opened] + QuietBeats(now + d, i + 1))
        == Outcome(Exited(TimeoutExitCode), [OpenWatch(g.deviceId, g.clusterId)] + Frames(i + 1) + DeletePeer(g))
  {
    var i := FirstOverdueBeat(d);
    var beats := QuietBeats(now + d, i + 1);
    var st := Start(g, now);
    RunAppend(st.p, [Opened], beats);
    var up := Step(st.p, Opened);
    RunOne(st.p, Opened);
    assert up.p == Live(Supervisor(g, now, Open, Beating));
    forall j | 0 <= j < i ensures beats[j].Heartbeat? && beats[j].t - now <= LivenessTimeout {
      assert beats[j].t == now + d + HeartbeatInterval * j;
    }
    assert beats[i].t - now == d + HeartbeatInterval * i;
    assert FirstOverdue(now, beats, i);
    SilenceStopsAtFirstOverdue(up.p.sup, beats, i);
    assert [] + (Frames(i + 1) + DeletePeer(g)) == Frames(i + 1) + DeletePeer(g);
    Associate(st.effects, Frames(i + 1), DeletePeer(g));
  }

  /**
   The silence clock starts when the connection is requested, not when it opens: however
   the open is delayed, the first heartbeat that goes through more than 30 seconds after
   the start finds the silence overdue, deletes the peer and exits 1.
   */
  lemma SlowOpenTimesOut(g: Session, now: int, t: int)
    requires t - now > LivenessTimeout
    ensures Supervise(g, now, [Opened, Heartbeat(t, true, false)])
      == Outcome(Exited(TimeoutExitCode), [OpenWatch(g.deviceId, g.clusterId), SendHeartbeat(HeartbeatPayload)] + DeletePeer(g))
  {
    var st := Start(g, now);
    var hb := Heartbeat(t, true, false);
    assert [Opened, hb] == [Opened] + [hb];
    RunAppend(st.p, [Opened], [hb]);
    var up := Step(st.p, Opened);
    RunOne(st.p, Opened);
    RunOne(up.p, hb);
    assert [OpenWatch(g.deviceId, g.clusterId)] + ([] + ([SendHeartbeat(HeartbeatPayload)] + DeletePeer(g)))
      == [OpenWatch(g.deviceId, g.clusterId), SendHeartbeat(HeartbeatPayload)] + DeletePeer(g);
  }

  /** handle_shutdown() run when a signal arrives after n stages (or once a stage has halted). */
  function SignalDuringOnboarding(inp: Inputs, n: nat): (x: Exit)
    requires n <= StageCount
    ensures x.code == SignalExitCode
    ensures Deletes(x.effects) <= 1
  {
    HandleShutdown(RunStages(inp, n).s)
  }

  /** Stages before install_netbird never set the NetBird IP, whether they completed or halted. */
  lemma {:induction false} NoIpBeforeInstall(inp: Inputs, n: nat)
    requires n <= 3
    ensures RunStages(inp, n).s.netbirdIp.None?
  {
    if n > 0 {
      NoIpBeforeInstall(inp, n - 1);
    }
  }

  /** The device id comes from the command line and is never reassigned. */
  lemma {:induction false} DeviceIdFromArgv(inp: Inputs, n: nat)
    requires 1 <= n <= StageCount && RunStages(inp, n).Running?
    ensures |inp.argv| >= 3 && RunStages(inp, n).s.deviceId == Some(inp.argv[1])
  {
    RunningStep(inp, n - 1);
    if n > 1 {
      DeviceIdFromArgv(inp, n - 1);
    }
  }

  /** A signal before the NetBird IP is known exits 0 without contacting the server. */
  lemma SignalBeforeTunnelDeletesNothing(inp: Inputs, n: nat)
    requires n <= 3
    ensures SignalDuringOnboarding(inp, n) == Exit(SignalExitCode, [])
  {
    NoIpBeforeInstall(inp, n);
  }

  /**
   A signal once the tunnel is up deletes the peer, addressed by the command-line
   device id, exactly when that id is non-empty; this holds even before register_peer
   has returned a peer id.
   */
  lemma SignalAfterTunnelDeletes(inp: Inputs, n: nat)
    requires 4 <= n <= StageCount && RunStages(inp, n).Running?
    ensures |inp.argv| >= 3
    ensures var s := RunStages(inp, n).s;
      SignalDuringOnboarding(inp, n).effects
        == if |inp.argv[1]| > 0 then [DeletePeerRequest(inp.argv[1], s.clusterId, s.netbirdIp.value)] else []
  {
    DeviceIdFromArgv(inp, n);
    var s := RunStages(inp, n).s;
    assert Progressed(s, n);
    assert Present(s.deviceId) <==> |inp.argv[1]| > 0;
    assert Truthy(s.clusterId) && Present(s.netbirdIp);
  }

  /**
   The delete request that clean-up sends after a completed onboarding: addressed by the
   command-line device id, for the listed cluster and the extracted address, and only
   when that device id is non-empty.
   */
  lemma OnboardedDelete(inp: Inputs)
    requires Onboard(inp).Running?
    ensures |inp.argv| >= 3 && ListsCluster(inp.eligibility) && ExtractIp(inp.netbirdStatus.stdout).Some?
    ensures DeletePeer(Onboard(inp).s)
      == if |inp.argv[1]| > 0
         then [DeletePeerRequest(inp.argv[1], ListedCluster(inp.eligibility), ExtractIp(inp.netbirdStatus.stdout).value)]
         else []
  {
    OnboardedSession(inp);
  }

  /** After a completed onboarding, a signal exits 0 after issuing exactly that delete. */
  lemma SignalAfterOnboarding(inp: Inputs, now: int, pre: seq<Event>)
    requires Onboard(inp).Running? && Supervise(Onboard(inp).s, now, pre).p.Live?
    ensures RunNode(inp, now, pre + [Signal])
      == Outcome(Exited(SignalExitCode), RunNode(inp, now, pre).trace + DeletePeer(Onboard(inp).s))
  {
    SuperviseSignal(Onboard(inp).s, now, pre);
  }

  /** After a completed onboarding, a closed connection exits 0 and leaves the peer registered. */
  lemma CloseLeavesPeerRegistered(inp: Inputs, now: int, pre: seq<Event>)
    requires Onboard(inp).Running? && Supervise(Onboard(inp).s, now, pre).p.Live?
    ensures RunNode(inp, now, pre + [ConnClosed]) == Outcome(Exited(CleanExitCode), RunNode(inp, now, pre).trace)
    ensures Deletes(RunNode(inp, now, pre + [ConnClosed]).trace) == 0
  {
    SuperviseClose(Onboard(inp).s, now, pre);
  }

  /**
   After a completed onboarding, a server that never speaks, with the connection opening
   at the instant the clock starts, gets five heartbeats, the peer deleted and the node stopped.
   */
  lemma SilentServerStopsNode(inp: Inputs, now: int)
    requires Onboard(inp).Running?
    ensures var p := Onboard(inp); var o := RunNode(inp, now, [Opened] + QuietBeats(now, 5));
      && o.p == Exited(TimeoutExitCode)
      && o.trace == p.trace + ([OpenWatch(p.s.deviceId, p.s.clusterId)] + Frames(5) + DeletePeer(p.s))
  {
    SuperviseSilence(Onboard(inp).s, now);
  }

  /**
   After a completed onboarding, a server that never speaks, with the connection opening
   d seconds after the clock starts: the node sends FirstOverdueBeat(d) + 1 heartbeats,
   four when 0 < d <= 10, then deletes the peer and exits 1.
   */
  lemma SilentServerAfterDelayStopsNode(inp: Inputs, now: int, d: nat)
    requires Onboard(inp).Running?
    ensures var p := Onboard(inp); var i := FirstOverdueBeat(d);
      var o := RunNode(inp, now, [Opened] + QuietBeats(now + d, i + 1));
      && o.p == Exited(TimeoutExitCode)
      && o.trace == p.trace + ([OpenWatch(p.s.deviceId, p.s.clusterId)] + Frames(i + 1) + DeletePeer(p.s))
    ensures 0 < d <= HeartbeatInterval ==> FirstOverdueBeat(d) + 1 == 4
  {
    SuperviseSilenceAfterDelay(Onboard(inp).s, now, d);
  }
}

=== FILE: pyjson.dfy ===
/**
 A decoded JSON document as the onboarding script sees it after `response.json()`,
 together with the Python operations the script applies to such values:
 truthiness (`if not x`), `d.get(key, default)` and indexing with `[0]`.
 */
module PyJson {
  import opened Wrappers

  /** JSON numbers are kept as exact reals; Python's int/float split does not matter here. */
  datatype Json =
    | JNull
    | JBool(b: bool)
    | JNum(n: real)
    | JStr(s: string)
    | JArr(items: seq<Json>)
    | JObj(fields: map<string, Json>)

  /** The Python exceptions that can escape the modelled code. Each one ends the process with status 1. */
  datatype PyError =
    | AttributeError
    | IndexError
    | KeyError
    | TypeError
    | ValueError
    | JsonDecodeError
    | ConnectionError

  /** Python truthiness: `None`, `False`, zero, and empty strings, lists and dicts are falsy. */
  predicate Truthy(v: Json) {
    match v
    case JNull => false
    case JBool(b) => b
    case JNum(n) => n != 0.0
    case JStr(s) => |s| > 0
    case JArr(items) => |items| > 0
    case JObj(fields) => |fields| > 0
  }

  /** `v.get(key, default)`: only dicts have a `get` method. */
  function Get(v: Json, key: string, default: Json): (r: Result<Json, PyError>)
    ensures r.Success? <==> v.JObj?
    ensures r.Success? && key in v.fields ==> r.value == v.fields[key]
    ensures r.Success? && key !in v.fields ==> r.value == default
  {
    match v
    case JObj(fields) => Success(if key in fields then fields[key] else default)
    case _ => Failure(AttributeError)
  }

  /**
   `v[0]`: the first element of a non-empty list, the first character of a
   non-empty string; an empty sequence raises IndexError, a dict raises KeyError
   (JSON keys are strings, never the integer 0), and scalars are not subscriptable.
   */
  function First(v: Json): (r: Result<Json, PyError>)
    ensures v.JArr? ==> (r.Success? <==> |v.items| > 0)
    ensures v.JArr? && |v.items| > 0 ==> r == Success(v.items[0])
    ensures r.Success? ==> Truthy(v)
  {
    match v
    case JArr(items) => if |items| > 0 then Success(items[0]) else Failure(IndexError)
    case JStr(s) => if |s| > 0 then Success(JStr(s[..1])) else Failure(IndexError)
    case JObj(_) => Failure(KeyError)
    case _ => Failure(TypeError)
  }
}

=== FILE: seqs.dfy ===
/** Facts about sequence concatenation, proved once in a context free of the model's definitions. */
module Seqs {
  /** Appending after a non-empty sequence keeps its head and appends to its tail. */
  lemma SplitHead<T>(a: seq<T>, b: seq<T>)
    requires |a| > 0
    ensures (a + b)[0] == a[0] && (a + b)[1..] == a[1..] + b
  {
  }

  lemma Associate<T>(x: seq<T>, y: seq<T>, z: seq<T>)
    ensures x + (y + z) == (x + y) + z
  {
  }
}

=== FILE: shutdown.dfy ===
/**
 `delete_peer` and `handle_shutdown`: the clean-up run on SIGTERM/SIGINT and on a
 liveness timeout.
 */
module Shutdown {
  import opened PyJson
  import opened Node

  /** sys.exit(0) after a signal. */
  const SignalExitCode := 0
  /** os._exit(1) after a liveness timeout. */
  const TimeoutExitCode := 1
  /** The status of the process when the main block returns normally. */
  const CleanExitCode := 0

  /** How the process ends: its exit status and the effects of the clean-up that preceded it. */
  datatype Exit = Exit(code: int, effects: seq<Effect>)

  /**
   delete_peer(): skipped unless device_id, cluster_id and netbird_ip are all truthy;
   otherwise one DELETE carrying clusterId and netbirdIP. The response status is only
   logged, so it is not an input.
   */
  function DeletePeer(s: Session): (r: seq<Effect>)
    ensures |r| <= 1
    ensures |r| == 1 <==> Present(s.deviceId) && Truthy(s.clusterId) && Present(s.netbirdIp)
    ensures |r| == 1 ==> r[0] == DeletePeerRequest(s.deviceId.value, s.clusterId, s.netbirdIp.value)
  {
    if !Present(s.deviceId) || !Truthy(s.clusterId) || !Present(s.netbirdIp) then []
    else [DeletePeerRequest(s.deviceId.value, s.clusterId, s.netbirdIp.value)]
  }

  /**
   delete_peer() when `requests.delete` raises (a transport error): the same guard, the
   request is attempted, and the exception leaves the caller before it can go on.
   */
  function DeletePeerRaising(s: Session): (r: seq<Effect>)
    ensures |r| == |DeletePeer(s)|
    ensures |r| == 1 ==> r[0] == DeletePeerFailed(DeletePeer(s)[0].device, DeletePeer(s)[0].clusterId, DeletePeer(s)[0].address)
    ensures Deletes(r) == 0
  {
    if DeletePeer(s) == [] then []
    else [DeletePeerFailed(s.deviceId.value, s.clusterId, s.netbirdIp.value)]
  }

  /** handle_shutdown(): clean up, then exit with status 0. */
  function HandleShutdown(s: Session): (r: Exit)
    ensures r.code == SignalExitCode
    ensures r.effects == DeletePeer(s)
    ensures Deletes(r.effects) == 1 <==> Present(s.deviceId) && Truthy(s.clusterId) && Present(s.netbirdIp)
    ensures Deletes(r.effects) <= 1
    ensures forall e :: e in r.effects ==> e.DeletePeerRequest?
  {
    Exit(SignalExitCode, DeletePeer(s))
  }

  /** The timeout branch of the heartbeat loop: clean up, then os._exit(1). */
  function TimeoutShutdown(s: Session): (r: Exit)
    ensures r.code == TimeoutExitCode
    ensures r.effects == DeletePeer(s)
    ensures Deletes(r.effects) == 1 <==> Present(s.deviceId) && Truthy(s.clusterId) && Present(s.netbirdIp)
    ensures Deletes(r.effects) <= 1
    ensures forall e :: e in r.effects ==> e.DeletePeerRequest?
  {
    Exit(TimeoutExitCode, DeletePeer(s))
  }

  /** The guard does not look at peer_id: a delete is sent even if no peer was registered. */
  lemma DeletePeerIgnoresPeerId(s: Session, p: Json)
    ensures DeletePeer(s.(peerId := p)) == DeletePeer(s)
  {
  }

  /** Before the NetBird IP is known there is nothing to delete, whatever else is set. */
  lemma DeletePeerNoOpBeforeTunnel(s: Session)
    requires s.netbirdIp.None?
    ensures DeletePeer(s) == []
    ensures HandleShutdown(s) == Exit(0, [])
  {
  }
}

=== FILE: status_parse.dfy ===
/**
 The NetBird IP extraction of `install_netbird`:
 `re.search(r"NetBird IP: (\d+\.\d+\.\d+\.\d+)", status_output).group(1)`.
 Digits and '.' are disjoint, so each greedy `\d+` takes the whole digit run and
 never backtracks; the search returns the leftmost position where the pattern matches.
 */
module StatusParse {
  import opened Wrappers
  import opened Numeric

  const Marker: string := "NetBird IP: "

  /** The four digit groups of a dotted quad. No range check: "999.0.0.1" is accepted. */
  datatype Quad = Quad(a: string, b: string, c: string, d: string)

  /** A `\d+` group. */
  predicate Group(g: string) {
    |g| > 0 && AllDigits(g)
  }

  predicate ValidQuad(q: Quad) {
    Group(q.a) && Group(q.b) && Group(q.c) && Group(q.d)
  }

  /** The matched text, `group(1)`. */
  function Text(q: Quad): string {
    q.a + "." + q.b + "." + q.c + "." + q.d
  }

  /**
   Independent description of a match at p: the status text has the marker at p,
   then the dotted quad, and the digit run does not continue after it.
   */
  predicate IpLineAt(s: string, p: nat, q: Quad) {
    var e := p + |Marker| + |Text(q)|;
    && ValidQuad(q)
    && e <= |s|
    && s[p..p + |Marker|] == Marker
    && s[p + |Marker|..e] == Text(q)
    && (e == |s| || !IsDigit(s[e]))
  }

  /** Some position of s holds a NetBird IP line. */
  ghost predicate HasIpLine(s: string) {
    exists p: nat, q: Quad :: IpLineAt(s, p, q)
  }

  /** The end of the digit run starting at i. */
  function DigitRunEnd(s: string, i: nat): (k: nat)
    requires i <= |s|
    ensures i <= k <= |s|
    ensures forall j :: i <= j < k ==> IsDigit(s[j])
    ensures k < |s| ==> !IsDigit(s[k])
    decreases |s| - i
  {
    if i == |s| || !IsDigit(s[i]) then i else DigitRunEnd(s, i + 1)
  }

  /** `\d+` at i: the group and where it ends, or None when s[i] is not a digit. */
  function GroupAt(s: string, i: nat): (r: Option<(string, nat)>)
    requires i <= |s|
    ensures r.Some? ==> i < r.value.1 <= |s| && r.value.0 == s[i..r.value.1] && Group(r.value.0)
    ensures r.Some? ==> r.value.1 == |s| || !IsDigit(s[r.value.1])
    ensures r.None? ==> i == |s| || !IsDigit(s[i])
  {
    var k := DigitRunEnd(s, i);
    if k == i then None
    else
      assert forall j :: 0 <= j < k - i ==> s[i..k][j] == s[i + j];
      Some((s[i..k], k))
  }

  /** `\.\d+` at i. */
  function DotGroupAt(s: string, i: nat): (r: Option<(string, nat)>)
    requires i <= |s|
    ensures r.Some? ==> i + 1 < r.value.1 <= |s| && s[i] == '.' && r.value.0 == s[i + 1..r.value.1]
    ensures r.Some? ==> Group(r.value.0) && (r.value.1 == |s| || !IsDigit(s[r.value.1]))
  {
    if i < |s| && s[i] == '.' then GroupAt(s, i + 1) else None
  }

  /** `\d+\.\d+\.\d+\.\d+` anchored at i: the quad and the index just after it. */
  function QuadAt(s: string, i: nat): (r: Option<(Quad, nat)>)
    requires i <= |s|
    ensures r.Some? ==> ValidQuad(r.value.0)
    ensures r.Some? ==> r.value.1 == i + |Text(r.value.0)| <= |s| && s[i..r.value.1] == Text(r.value.0)
    ensures r.Some? ==> r.value.1 == |s| || !IsDigit(s[r.value.1])
  {
    var g1 := GroupAt(s, i);
    if g1.None? then None else
    var (a, i1) := g1.value;
    var g2 := DotGroupAt(s, i1);
    if g2.None? then None else
    var (b, i2) := g2.value;
    var g3 := DotGroupAt(s, i2);
    if g3.None? then None else
    var (c, i3) := g3.value;
    var g4 := DotGroupAt(s, i3);
    if g4.None? then None else
    var (d, i4) := g4.value;
    SpellQuad(s, i, i1, i2, i3, i4, a, b, c, d);
    Some((Quad(a, b, c, d), i4))
  }

  /** Four groups found one after another spell Text of their quad. */
  lemma SpellQuad(s: string, i: nat, i1: nat, i2: nat, i3: nat, i4: nat, a: string, b: string, c: string, d: string)
    requires i < i1 < i2 < i3 < i4 <= |s|
    requires s[i..i1] == a && s[i1] == '.' && s[i1 + 1..i2] == b && s[i2] == '.'
    requires s[i2 + 1..i3] == c && s[i3] == '.' && s[i3 + 1..i4] == d
    ensures s[i..i4] == Text(Quad(a, b, c, d))
  {
    SliceDot(s, i1);
    SliceDot(s, i2);
    SliceDot(s, i3);
    SliceAppend(s, i, i1, i1 + 1, a, ".");
    SliceAppend(s, i, i1 + 1, i2, a + ".", b);
    SliceAppend(s, i, i2, i2 + 1, a + "." + b, ".");
    SliceAppend(s, i, i2 + 1, i3, a + "." + b + ".", c);
    SliceAppend(s, i, i3, i3 + 1, a + "." + b + "." + c, ".");
    SliceAppend(s, i, i3 + 1, i4, a + "." + b + "." + c + ".", d);
  }

  lemma SliceDot(s: string, j: nat)
    requires j < |s| && s[j] == '.'
    ensures s[j..j + 1] == "."
  {
  }

  lemma SliceAppend(s: string, i: nat, j: nat, k: nat, x: string, y: string)
    requires i <= j <= k <= |s| && s[i..j] == x && s[j..k] == y
    ensures s[i..k] == x + y
  {
    SliceJoin(s, i, j, k);
  }

  /** The whole pattern anchored at p. */
  function MatchAt(s: string, p: nat): (r: Option<Quad>)
    requires p <= |s|
  {
    if p + |Marker| <= |s| && s[p..p + |Marker|] == Marker then
      match QuadAt(s, p + |Marker|)
      case None => None
      case Some((q, _)) => Some(q)
    else None
  }

  /** k is the leftmost position at or after p where the pattern matches. */
  predicate FirstMatchFrom(s: string, p: nat, k: nat) {
    && p <= k <= |s|
    && MatchAt(s, k).Some?
    && forall k' :: p <= k' < k ==> MatchAt(s, k').None?
  }

  /** `re.search` from position p onward: the leftmost match. */
  function SearchFrom(s: string, p: nat): Option<Quad>
    requires p <= |s|
    decreases |s| - p
  {
    match MatchAt(s, p)
    case Some(q) => Some(q)
    case None => if p == |s| then None else SearchFrom(s, p + 1)
  }

  /** What SearchFrom finds is the leftmost match at or after p. */
  lemma {:induction false} SearchFromLeftmost(s: string, p: nat)
    requires p <= |s| && SearchFrom(s, p).Some?
    ensures exists k :: FirstMatchFrom(s, p, k) && MatchAt(s, k) == SearchFrom(s, p)
    decreases |s| - p
  {
    if MatchAt(s, p).Some? {
      assert FirstMatchFrom(s, p, p);
    } else {
      SearchFromLeftmost(s, p + 1);
      var k :| FirstMatchFrom(s, p + 1, k) && MatchAt(s, k) == SearchFrom(s, p + 1);
      assert FirstMatchFrom(s, p, k);
    }
  }

  /** SearchFrom finds nothing exactly when no position at or after p matches. */
  lemma SearchFromNone(s: string, p: nat)
    requires p <= |s|
    ensures SearchFrom(s, p).None? <==> forall k :: p <= k <= |s| ==> MatchAt(s, k).None?
  {
    if SearchFrom(s, p).None? {
      SearchMissesNothing(s, p);
    } else {
      SearchFromLeftmost(s, p);
    }
  }

  /** When SearchFrom finds nothing, the pattern matches nowhere at or after p. */
  lemma {:induction false} SearchMissesNothing(s: string, p: nat)
    requires p <= |s| && SearchFrom(s, p).None?
    ensures forall k :: p <= k <= |s| ==> MatchAt(s, k).None?
    decreases |s| - p
  {
    if p < |s| {
      SearchMissesNothing(s, p + 1);
    }
  }

  /** The extraction of install_netbird: the matched text, or None when `re.search` finds nothing. */
  function ExtractIp(status: string): Option<string> {
    match SearchFrom(status, 0)
    case None => None
    case Some(q) => Some(Text(q))
  }

  // ---------------------------------------------------------------------------
  // Lemmas

  lemma SliceJoin(s: string, i: nat, j: nat, k: nat)
    requires i <= j <= k <= |s|
    ensures s[i..j] + s[j..k] == s[i..k]
  {
  }

  lemma SliceSplit(s: string, i: nat, e: nat, x: string, y: string)
    requires i <= e <= |s| && s[i..e] == x + y
    ensures i + |x| <= e && s[i..i + |x|] == x && s[i + |x|..e] == y
  {
    assert s[i..e][..|x|] == x;
    assert s[i..e][|x|..] == y;
  }

  /** A digit run known to end at k is the run DigitRunEnd finds. */
  lemma GroupAtExact(s: string, i: nat, g: string)
    requires Group(g) && i + |g| <= |s| && s[i..i + |g|] == g
    requires i + |g| == |s| || !IsDigit(s[i + |g|])
    ensures GroupAt(s, i) == Some((g, i + |g|))
  {
    var k := DigitRunEnd(s, i);
    forall j | i <= j < i + |g| ensures IsDigit(s[j]) {
      assert s[j] == g[j - i];
    }
    assert k == i + |g|;
  }

  lemma DotOfSlice(s: string, j: nat)
    requires j < |s| && s[j..j + 1] == "."
    ensures s[j] == '.'
  {
    assert s[j] == s[j..j + 1][0];
  }

  /** `\.\d+` at j when s[j] is a dot followed by exactly the group g. */
  lemma DotGroupExact(s: string, j: nat, g: string)
    requires j < |s| && s[j..j + 1] == "."
    requires Group(g) && j + 1 + |g| <= |s| && s[j + 1..j + 1 + |g|] == g
    requires j + 1 + |g| == |s| || !IsDigit(s[j + 1 + |g|])
    ensures DotGroupAt(s, j) == Some((g, j + 1 + |g|))
  {
    DotOfSlice(s, j);
    GroupAtExact(s, j + 1, g);
  }

  /** QuadAt assembles the four groups it finds. */
  lemma QuadAtFromGroups(s: string, i: nat, i1: nat, i2: nat, i3: nat, e: nat, a: string, b: string, c: string, d: string)
    requires i <= |s|
    requires GroupAt(s, i) == Some((a, i1))
    requires i1 <= |s| && DotGroupAt(s, i1) == Some((b, i2))
    requires i2 <= |s| && DotGroupAt(s, i2) == Some((c, i3))
    requires i3 <= |s| && DotGroupAt(s, i3) == Some((d, e))
    ensures QuadAt(s, i) == Some((Quad(a, b, c, d), e))
  {
  }

  /** The last `.group` of a dotted text ending at e is what DotGroupAt finds before e. */
  lemma PeelGroup(s: string, i: nat, e: nat, x: string, g: string)
    requires i <= e <= |s| && s[i..e] == x + "." + g
    requires Group(g) && (e == |s| || !IsDigit(s[e]))
    ensures i + |x| < e && s[i..i + |x|] == x && s[i + |x|] == '.'
    ensures DotGroupAt(s, i + |x|) == Some((g, e))
  {
    SliceSplit(s, i, e, x + ".", g);
    SliceSplit(s, i, i + |x| + 1, x, ".");
    DotGroupExact(s, i + |x|, g);
  }

  /** The text of a valid quad followed by a non-digit is matched as exactly that quad. */
  lemma QuadAtComplete(s: string, i: nat, q: Quad)
    requires ValidQuad(q) && i + |Text(q)| <= |s| && s[i..i + |Text(q)|] == Text(q)
    requires i + |Text(q)| == |s| || !IsDigit(s[i + |Text(q)|])
    ensures QuadAt(s, i) == Some((q, i + |Text(q)|))
  {
    var e := i + |Text(q)|;
    var a, b, c, d := q.a, q.b, q.c, q.d;
    PeelGroup(s, i, e, a + "." + b + "." + c, d);
    var i3 := i + |a + "." + b + "." + c|;
    PeelGroup(s, i, i3, a + "." + b, c);
    var i2 := i + |a + "." + b|;
    PeelGroup(s, i, i2, a, b);
    var i1 := i + |a|;
    GroupAtExact(s, i, a);
    QuadAtFromGroups(s, i, i1, i2, i3, e, a, b, c, d);
  }

  /** MatchAt recognises exactly the NetBird IP lines. */
  lemma MatchAtIff(s: string, p: nat, q: Quad)
    requires p <= |s|
    ensures MatchAt(s, p) == Some(q) <==> IpLineAt(s, p, q)
  {
    if IpLineAt(s, p, q) {
      QuadAtComplete(s, p + |Marker|, q);
    } else if p + |Marker| <= |s| && s[p..p + |Marker|] == Marker {
      var r := QuadAt(s, p + |Marker|);
      assert r.None? || r.value.0 != q;
    }
  }

  /** No NetBird IP line starts before p. */
  ghost predicate NoIpLineBefore(s: string, p: nat) {
    forall p': nat, q: Quad :: p' < p ==> !IpLineAt(s, p', q)
  }

  /**
   The extraction succeeds iff the status text holds a NetBird IP line, and then it
   returns the dotted quad of the leftmost such line.
   */
  lemma ExtractIpSpec(s: string)
    ensures ExtractIp(s).Some? <==> HasIpLine(s)
    ensures ExtractIp(s).Some? ==>
      exists p: nat, q: Quad :: IpLineAt(s, p, q) && NoIpLineBefore(s, p) && ExtractIp(s) == Some(Text(q))
  {
    if ExtractIp(s).Some? {
      ExtractIpFindsLeftmost(s);
    } else {
      ExtractIpMissesNothing(s);
    }
  }

  lemma ExtractIpFindsLeftmost(s: string)
    requires ExtractIp(s).Some?
    ensures exists p: nat, q: Quad :: IpLineAt(s, p, q) && NoIpLineBefore(s, p) && ExtractIp(s) == Some(Text(q))
  {
    var r := SearchFrom(s, 0);
    SearchFromLeftmost(s, 0);
    var k :| FirstMatchFrom(s, 0, k) && MatchAt(s, k) == r;
    MatchAtIff(s, k, r.value);
    NoMatchNoLine(s, k);
  }

  /** Positions where the pattern does not match hold no NetBird IP line. */
  lemma NoMatchNoLine(s: string, k: nat)
    requires k <= |s| && forall k' :: 0 <= k' < k ==> MatchAt(s, k').None?
    ensures NoIpLineBefore(s, k)
  {
    forall p': nat, q': Quad | p' < k ensures !IpLineAt(s, p', q') {
      MatchAtIff(s, p', q');
    }
  }

  lemma ExtractIpMissesNothing(s: string)
    requires ExtractIp(s).None?
    ensures !HasIpLine(s)
  {
    SearchFromNone(s, 0);
    forall p: nat, q: Quad | IpLineAt(s, p, q) ensures false {
      MatchAtIff(s, p, q);
    }
  }

  /** An extracted address has at least the seven characters of four one-digit groups and three dots. */
  lemma ExtractedIpLength(s: string)
    ensures ExtractIp(s).Some? ==> |ExtractIp(s).value| >= 7
  {
    ExtractIpSpec(s);
  }

  /** Rendering a status line and extracting from it gives back the address. */
  lemma ExtractIpRoundTrip(q: Quad, rest: string)
    requires ValidQuad(q)
    requires rest == [] || !IsDigit(rest[0])
    ensures ExtractIp(Marker + Text(q) + rest) == Some(Text(q))
  {
    var s := Marker + Text(q) + rest;
    assert s[0..|Marker|] == Marker;
    assert s[|Marker|..|Marker| + |Text(q)|] == Text(q);
    assert |Marker| + |Text(q)| < |s| ==> s[|Marker| + |Text(q)|] == rest[0];
    assert IpLineAt(s, 0, q);
    MatchAtIff(s, 0, q);
  }

  /** A typical status line: the /16 suffix is not part of the address. */
  lemma ExtractIpTypicalExample()
    ensures ExtractIp("NetBird IP: 100.64.0.5/16") == Some("100.64.0.5")
  {
    var q := Quad("100", "64", "0", "5");
    assert Text(q) == "100.64.0.5";
    assert Marker + "100.64.0.5" + "/16" == "NetBird IP: 100.64.0.5/16";
    assert ValidQuad(q);
    ExtractIpRoundTrip(q, "/16");
  }

  /** No 0-255 range check is made on the groups. */
  lemma ExtractIpNoRangeCheckExample()
    ensures ExtractIp("NetBird IP: 999.0.0.256") == Some("999.0.0.256")
  {
    var q := Quad("999", "0", "0", "256");
    assert Text(q) == "999.0.0.256";
    assert Marker + "999.0.0.256" + "" == "NetBird IP: 999.0.0.256";
    assert ValidQuad(q);
    ExtractIpRoundTrip(q, "");
  }

  /** The match stops after the fourth group even when a fifth follows. */
  lemma ExtractIpFiveGroupsExample()
    ensures ExtractIp("NetBird IP: 1.2.3.4.5") == Some("1.2.3.4")
  {
    var q := Quad("1", "2", "3", "4");
    assert Text(q) == "1.2.3.4";
    assert Marker + "1.2.3.4" + ".5" == "NetBird IP: 1.2.3.4.5";
    assert ValidQuad(q);
    ExtractIpRoundTrip(q, ".5");
  }
}

=== FILE: wrappers.dfy ===
/** Failure-compatible wrappers used throughout the model. */
module Wrappers {

  /** An optional value; `None` plays the role of Python's `None`. */
  datatype Option<+T> = None | Some(value: T)

  /** Either a value or the error that prevented computing it. */
  datatype Result<+T, +E> = Success(value: T) | Failure(error: E)
}
